=== FILE: README.md ===
# randomMatching — a Dafny model of the pairing engine and its tables

randomMatching is a single-page tool. People type nicknames into a numbered
table and press "match". The page shuffles the non-blank rows and pairs them
two by two. An odd leftover is paired with the waiting sentinel
`{number: 0, nickname: "대기"}`. A pair of two real players can be promoted
to "friends": the result list shows the button only when the second player is
not "대기", and friend results have no such button. Promoting queues the
players for the friend table and records the pair in a history of previous
friends. Friend matching shuffles the friend table's non-blank rows
and runs two passes:

- Pass 1 greedily pairs each unused entry with the first later unused entry
  whose combination is not in the history.
- Pass 2 pairs whatever is left consecutively, with the same odd-leftover rule.

This project models that core as pure functions over immutable values:

| file | module | models |
|---|---|---|
| `seqs.dfy` | `Seqs` | `Array.prototype.filter` and its laws |
| `entries.dfy` | `Entries` | rows and players (`Entry`), pairs, the sentinel, JavaScript `trim`, which rows are valid |
| `shuffle.dfy` | `Shuffling` | `shuffleArray` (Fisher–Yates) |
| `pairing.dfy` | `Pairing` | the pairing loops of `handleMatching`, also used by friend matching's pass 2 |
| `friend_pairing.dfy` | `FriendPairing` | the two passes of `handleFriendMatch` |
| `friend_coverage.dfy` | `FriendCoverage` | coverage of friend matching, and its agreement with basic matching when there is no history |
| `entry_table.dfy` | `EntryTable` | the row edits the nickname table and the friend table share line for line |
| `nickname_table.dfy` | `NicknameTable` | the nickname table's handlers and its reset effect |
| `friend_section.dfy` | `FriendSection` | the friend table's handlers and the `friendsToAdd` merge |
| `app.dfy` | `App` | the page state and `handleMatching`, `handleFriendMatch`, `handleAddFriend`, `handleResetMatching` |

Modelling choices:

- **Randomness.** `Math.random()` enters as index choices `js`. `js[i]` is the
  `j` drawn at step `i` of the shuffle, and the model only knows that
  `0 <= js[i] <= i`. `Shuffling.ShuffleReachesEveryPermutation` shows that
  this loses nothing: every ordering is the shuffle under some choice.
- **Alerts.** An `alert` becomes `Response.alert`, next to a state equal to
  the one before.
- **History.** The history's string keys `${a}-${b}` are modelled as tuples
  `(a, b)`.
- **Entries.** A result player `{number, nickname}` is a field-by-field copy
  of a row, so rows and players share the type `Entry`.

The code records the history with the numbers of the *matching* table. Friend
matching, however, compares the ids of the *friend* table, which the merge
renumbers `1..n`. So the ids that pass 1 looks up are not the ids the history
holds. The model keeps this behaviour as written, since both functions are
modelled on ids.

Where the documented intent and the code disagree, the model follows the code:

- The comment above friend matching (src/App.tsx:120) describes it as logic
  that keeps previous friends from being matched together. The code is a
  first-fit greedy, and a pass that pairs leftovers with no constraint.
- `FriendPairing.GreedyCanRepeatExcludedPair` shows the difference. On the
  shuffle `[3, 4, 1, 2]` with history `{1-2}`, pass 1 takes `(3, 4)` and pass 2
  is then forced to pair the excluded `(1, 2)`. A valid matching `(1, 3), (2, 4)` exists.
- What the model proves instead:
  - pass-1 pairs are never excluded;
  - pass 2 only pairs entries that exclude each other;
  - every entry still gets exactly one pair.

## Model

| member | source | states |
|---|---|---|
| `Seqs.FilterConcat` | src/App.tsx:32 | filtering distributes over concatenation, so kept rows stay in their relative order |
| `Entries.BlankIffTrimsEmpty` | src/App.tsx:32 | a nickname counts as blank exactly when `trim` (which strips JavaScript white space from both ends) leaves the empty string |
| `Entries.WaitingIsNotBlank` | src/App.tsx:68-71 | the sentinel's nickname "대기" is not blank |
| `Entries.TrimStart` | src/App.tsx:32 | the result is a suffix of the input; everything dropped is white space; a non-empty result starts with a non-space |
| `Entries.TrimEnd` | src/App.tsx:32 | the result is a prefix of the input; everything dropped is white space; a non-empty result ends with a non-space |
| `Entries.Trim` | src/App.tsx:32 | `trim` returns a contiguous slice of its input with only white space on either side of it, and a non-empty slice starts and ends with a non-space |
| `Entries.ValidEntries` | src/App.tsx:32 | the valid rows are rows of the table whose nickname is not blank, and every such row is kept |
| `Entries.FilterKeepsDistinctIds` | src/App.tsx:113 | filtering out blank rows keeps ids distinct |
| `Shuffling.Shuffle` | src/App.tsx:21-28 | the shuffle keeps the length and is a permutation of its input (same multiset) |
| `Shuffling.ShuffleArray` | src/App.tsx:21-28 | the loop from `length - 1` down to 1, swapping `i` with the drawn `j`, returns a permutation of its input: the shuffle under the same choices |
| `Shuffling.ShuffleShort` | src/App.tsx:23 | an empty or one-element array comes back unchanged (the loop body never runs) |
| `Shuffling.ShuffleReachesEveryPermutation` | src/App.tsx:21-28 | every permutation of the input is the result for some legal sequence of random indices |
| `Shuffling.ShuffleKeepsDistinctIds` | src/App.tsx:21-28 | shuffling keeps ids distinct |
| `Shuffling.Swap` | src/App.tsx:25 | the destructuring swap exchanges positions `i` and `j` and leaves every other position alone |
| `Shuffling.SwapPermutes` | src/App.tsx:25 | a swap keeps the multiset of elements |
| `Shuffling.ShuffleDownPermutes` | src/App.tsx:23-26 | the steps `i` down to 1 of the loop keep the multiset of elements |
| `Pairing.ConsecutivePairs` | src/App.tsx:45-58 | pair `k` is `(s[2k], s[2k+1])`, and there are `floor(n / 2)` of them |
| `Pairing.PairUp` | src/App.tsx:43-73 | `ceil(n / 2)` pairs; pair `k` is `(s[2k], s[2k+1])` below `n / 2`; for odd `n` the last pair is `(s[n-1], 대기)` |
| `Pairing.MatchShuffled` | src/App.tsx:43-73 | the loop with step 2 and its (always true) inner guard, then the odd push, builds exactly that pairing |
| `Pairing.PairUpFlatten` | src/App.tsx:43-73 | reading the pairs' players in order gives back the shuffled list, plus one sentinel at the end exactly when `n` is odd |
| `Pairing.PairUpPlayers` | src/App.tsx:43-73 | every player is an entry of the list, except the sentinel, which only appears as the second player of the last pair |
| `Pairing.PairUpCovers` | src/App.tsx:43-73 | every entry is a player of exactly one pair; the only other player is one sentinel for odd `n` |
| `FriendPairing.FindPartner` | src/App.tsx:128-151 | the inner loop finds the first later entry whose id is unused and whose combination is not in the history, or reports that none exists |
| `FriendPairing.Pass1` | src/App.tsx:125-152 | used ids only grow; no emitted pair is an excluded combination; every player is from the list; any two entries left unused are an excluded combination |
| `FriendPairing.ExcludedSymmetric` | src/App.tsx:131-135 | both key orders are looked up, so whether a combination is excluded does not depend on the order of its ids |
| `FriendPairing.Remaining` | src/App.tsx:155 | the leftovers are entries of the shuffled list whose id is unused, and every such entry is among them |
| `FriendPairing.FriendPairs` | src/App.tsx:125-182 | the result begins with exactly the pass-1 pairs, in the order pass 1 emitted them, and none of them is a combination in the history |
| `FriendPairing.RemainingPairwiseExcluded` | src/App.tsx:155 | the leftovers handed to pass 2 are pairwise excluded |
| `FriendPairing.FriendPairsSplit` | src/App.tsx:125-167 | in the result, pass-1 pairs avoid the history and every two-player pair of pass 2 is an excluded combination |
| `FriendPairing.GreedyCanRepeatExcludedPair` | src/App.tsx:125-167 | on `[3, 4, 1, 2]` with history `{1-2}` the result is `(3, 4), (1, 2)`, although `(1, 3), (2, 4)` avoids the history |
| `FriendCoverage.Pass1Covers` | src/App.tsx:125-152 | given distinct ids, each entry pass 1 marks used is a player of exactly one of its pairs |
| `FriendCoverage.MatchedRemainingSplit` | src/App.tsx:155 | the used and the remaining entries together are the shuffled list |
| `FriendCoverage.FriendPairsCover` | src/App.tsx:112-185 | given distinct ids: every entry is in exactly one pair; the only extra player is one sentinel for odd `n`; there are `ceil(n / 2)` pairs; the sentinel pair comes last |
| `FriendCoverage.Pass1WithoutHistory` | src/App.tsx:125-152 | given distinct ids, pass 1 with an empty history pairs the list consecutively and leaves only an odd last entry |
| `FriendCoverage.RemainingAfterPrefix` | src/App.tsx:155 | given distinct ids, once the ids of the first `m` entries are used, the leftovers are exactly the rest of the list |
| `FriendCoverage.FriendPairsWithoutHistory` | src/App.tsx:121-182 | with an empty history and distinct ids, friend matching returns exactly the pairs of basic matching |
| `EntryTable.Renumber` | src/components/NicknameTable.tsx:198-200 | renumbered rows carry `1..n` and keep their nicknames |
| `EntryTable.Numbering` | src/components/FriendSection.tsx:236-239 | numbering a list of nicknames gives rows `1..n` carrying those nicknames in order |
| `EntryTable.RenumberNumbered` | src/components/NicknameTable.tsx:198-200 | renumbering rows that are already numbered changes nothing |
| `EntryTable.SetNickname` | src/components/NicknameTable.tsx:141-147 | every row keeps its id; rows with the given id get the new nickname; all others are unchanged |
| `EntryTable.SetNicknameNumbered` | src/components/FriendSection.tsx:249-255 | on numbered rows an edit changes exactly row `id` if it exists, and otherwise nothing |
| `EntryTable.BlankRow` | src/components/NicknameTable.tsx:206-213 | "keep number" removal keeps the length and every id, blanks the row with that id, and leaves every other row as it was |
| `EntryTable.BlankRowDropsOut` | src/components/FriendSection.tsx:286-292 | after it, a row takes part in matching exactly when it did before and is not the blanked one |
| `EntryTable.RemoveRow` | src/components/NicknameTable.tsx:195-204 | a table of one row is left alone; otherwise the result is numbered `1..m` and no longer than before |
| `EntryTable.FilterOutRow` | src/components/FriendSection.tsx:279-280 | on numbered rows, filtering out id `k` removes exactly position `k - 1` |
| `EntryTable.RemoveRowNumbered` | src/components/FriendSection.tsx:276-284 | on numbered rows, removing an existing row closes the gap and renumbers; an absent id changes nothing |
| `EntryTable.MaxId` | src/components/NicknameTable.tsx:153 | `Math.max` of the ids is an upper bound that one of the rows attains |
| `EntryTable.AppendRow` | src/components/NicknameTable.tsx:152-161 | the old rows stay as they are, followed by one blank row with a fresh id above all others |
| `EntryTable.AppendRowNumbered` | src/components/FriendSection.tsx:303-310 | on numbered rows the new row is `n + 1`, so the numbering is kept |
| `EntryTable.FindIndex` | src/components/NicknameTable.tsx:174 | the first position holding the id, or -1 when no row has it |
| `EntryTable.FindIndexNumbered` | src/components/FriendSection.tsx:260 | on numbered rows, row `id` sits at position `id - 1` |
| `EntryTable.EnterAppendsNumbered` | src/components/NicknameTable.tsx:172-176 | on numbered rows, a key appends a row exactly when it is Enter and pressed in row `n` |
| `EntryTable.PressKey` | src/components/NicknameTable.tsx:171-193 | a key other than Enter changes nothing |
| `EntryTable.PressKeyNumbered` | src/components/FriendSection.tsx:257-274 | on numbered rows, Enter appends row `n + 1` exactly when pressed in the last row; otherwise the rows are unchanged |
| `EntryTable.InitialWellFormed` | src/components/NicknameTable.tsx:109 | the initial table `[{1, ''}]` is non-empty and numbered |
| `NicknameTable.Step` | src/components/NicknameTable.tsx:141-213 | the rows a handler reports to the page are exactly its new rows; a handler that reports nothing leaves the rows alone |
| `NicknameTable.StepKeepsWellFormed` | src/components/NicknameTable.tsx:133-213 | every handler, including the reset effect, keeps the table non-empty and numbered `1..n` |
| `NicknameTable.Run` | src/components/NicknameTable.tsx:109-213 | from a well-formed table, any sequence of handlers gives a well-formed table |
| `NicknameTable.SettleAsWritten` | src/components/NicknameTable.tsx:133-139 | as written, once the trigger is positive, a reported change is followed by a reset to the initial row |
| `NicknameTable.EditLostAfterReset` | src/components/NicknameTable.tsx:133-139 | after one reset, typing "a" into row 1 is wiped out by the re-run effect |
| `NicknameTable.Settle` | src/components/NicknameTable.tsx:133-139 | intended: the table is reset whenever the trigger has just changed to a positive value |
| `NicknameTable.EditsSurviveRender` | src/components/NicknameTable.tsx:133-139 | with the intended effect, a handler's result survives the re-render it causes |
| `FriendSection.AddedNicknames` | src/components/FriendSection.tsx:230-232 | every appended nickname is a promoted one that is not among the kept ones, and every such promoted nickname is appended |
| `FriendSection.AddedNicknamesSnoc` | src/components/FriendSection.tsx:230-232 | the appended nicknames follow `friendsToAdd` left to right, duplicates included: one more promoted player appends its nickname exactly when it is not among the kept ones |
| `FriendSection.MergeInto` | src/components/FriendSection.tsx:234-244 | the merged table is non-empty, numbered `1..n`, and ends in a blank row |
| `FriendSection.MergeFriends` | src/components/FriendSection.tsx:221-247 | an empty `friendsToAdd` leaves the rows alone; otherwise the result is well formed and ends in a blank row |
| `FriendSection.MergeKeepsCurrent` | src/components/FriendSection.tsx:225-235 | the non-blank rows' nicknames come first, in order; nicknames appended after them were not there before |
| `FriendSection.MergeAddsEveryFriend` | src/components/FriendSection.tsx:230-242 | every promoted nickname ends up in a row before the closing blank row |
| `FriendSection.KeptAfterMerge` | src/components/FriendSection.tsx:225-242 | for non-blank promoted nicknames, the non-blank rows of a merged table carry exactly the merged nicknames |
| `FriendSection.MergeFriendsIdempotent` | src/components/FriendSection.tsx:221-247 | merging the same non-blank players a second time changes nothing |
| `FriendSection.Step` | src/components/FriendSection.tsx:221-310 | reset gives `[{1, ''}]`; an empty `friendsToAdd` changes nothing |
| `FriendSection.StepKeepsWellFormed` | src/components/FriendSection.tsx:249-310 | every handler, and the merge, keeps the friend table non-empty and numbered `1..n` |
| `FriendSection.Run` | src/components/FriendSection.tsx:217-310 | from a well-formed table, any sequence of handlers gives a well-formed table |
| `App.HandleMatching` | src/App.tsx:30-76 | alerts exactly when fewer than two rows are non-blank, then with the state unchanged; otherwise only `results` changes, to `ceil(n / 2)` pairs |
| `App.MatchingCovers` | src/App.tsx:39-75 | after a match, every non-blank row is a player of exactly one pair, next to one sentinel when their count is odd |
| `App.MatchingPlayersValid` | src/App.tsx:32-73 | every first player is a non-blank row; every second player is a non-blank row or the sentinel |
| `App.MatchingNicknamesNonBlank` | src/App.tsx:32-73 | no player of a fresh result has a blank nickname |
| `App.HandleFriendMatch` | src/App.tsx:112-185 | alerts exactly when fewer than two friend rows are non-blank, then with the state unchanged; otherwise only `friendResults` changes |
| `App.FriendMatchCovers` | src/App.tsx:112-185 | given distinct ids, each non-blank friend row is in exactly one pair; plus one sentinel for odd counts; `ceil(n / 2)` pairs; the sentinel pair last |
| `App.FriendTableCovers` | src/components/FriendSection.tsx:294-296 | the rows the friend table hands over are numbered, so that coverage holds for them |
| `App.FriendMatchWithoutHistory` | src/App.tsx:112-185 | given distinct ids and no history, friend matching over some rows gives the pairs basic matching gives over the same rows and random choices |
| `App.HandleAddFriend` | src/App.tsx:78-110 | only `friendsToAdd` and `previousFriends` change, and the history only grows; one queued entry for a waiting pair, otherwise two; a waiting pair leaves the history unchanged; a real pair adds both directional keys and nothing else |
| `App.AddFriendExclusion` | src/App.tsx:99-104 | after promoting a real pair its two ids exclude each other in both orders; no other combination changes; a waiting pair changes none |
| `App.AddFriendTwice` | src/App.tsx:78-110 | promoting the same pair twice gives the same state as promoting it once |
| `App.AddFriendReachesTable` | src/App.tsx:78-96 | once merged into the friend table, the promoted nicknames (the second only if not waiting) are in its rows, and the table stays numbered |
| `App.ResetMatching` | src/App.tsx:187-191 | rows and results are cleared, the reset trigger grows, and nothing else changes |
| `App.ResetMatchingClearsTable` | src/App.tsx:187-191 | from a non-negative trigger, a reset brings the nickname table back to `[{1, ''}]` and reports that row to the page |

## Left out

- `Math.random` is not modelled. Its values enter as the index choices `js`, constrained to `0 <= js[i] <= i`.
- `alert` has no user interface here. It is the `alert` field of a `Response`, and the state is returned unchanged.
- Focus handling is not modelled: `inputRefs`, the `setTimeout` focus calls, and the focus move when Enter is pressed in a row that is not the last. None of it changes the rows.
- The 100 ms timer in `handleAddFriend` that clears `friendsToAdd` is not modelled. The merge ignores an empty `friendsToAdd`, so clearing it has no effect on the tables.
- The `window.addNicknameRow` and `window.addRowToNicknameTable` globals are not modelled as globals. They run the same code as the `AddRow` action.
- App.HandleAddFriend: the branch for a pair whose second player is "대기" is modelled as written, although the page offers no button for such a pair (src/components/ResultSection.tsx:148).
- `handleEntriesChange` is a plain setter. It appears only as `Outcome.reported` of the nickname table.
- `handleResetResults`, `handleResetFriendMatching` and `handleResetFriendResults` are not modelled. Each only clears one field of the page state. The friend table's `handleReset` is modelled without its `onReset` call.
- Rendering, styling and the other components are not part of this model. The other components only display results or pass callbacks through.
- EntryTable.AppendRow: requires a non-empty table. `Math.max()` of no ids is `-Infinity`, which an integer model cannot hold. Every table starts with one row and no handler empties it (`StepKeepsWellFormed`), so this input never occurs.
- EntryTable.PressKey: requires a non-empty table, for the same reason as `AppendRow`.
- NicknameTable.Step: requires a non-empty table, for the same reason as `AppendRow`.
- FriendSection.Step: requires a non-empty table, for the same reason as `AppendRow`.
- FriendCoverage.FriendPairsCover: assumes distinct ids. With duplicate ids, pass 1's set of used ids can drop an entry, and the result is not characterised. The friend table's rows are always numbered `1..n`, so this input never occurs.
- App.FriendMatchCovers: assumes distinct ids, for the same reason as `FriendPairsCover`.
- FriendCoverage.Pass1WithoutHistory: assumes distinct ids. With a repeated id, pairing one entry also marks a later entry with the same id as used, so pass 1 skips it and is not the consecutive pairing. The friend table's rows are numbered `1..n`, so this input never occurs.
- FriendCoverage.RemainingAfterPrefix: assumes distinct ids, for the same reason as `Pass1WithoutHistory`.
- FriendCoverage.FriendPairsWithoutHistory: assumes distinct ids, for the same reason as `Pass1WithoutHistory`.
- App.FriendMatchWithoutHistory: assumes distinct ids, for the same reason as `Pass1WithoutHistory`.
- FriendSection.KeptAfterMerge: assumes non-blank promoted nicknames. A blank one would be appended by the merge and then dropped by the blank-row filter. Only matched players, whose nicknames are non-blank (`App.MatchingNicknamesNonBlank`), are ever promoted.
- App.HandleMatching: states the size and coverage of the result, not which permutation the random indices choose. `Shuffling.ShuffleReachesEveryPermutation` covers the latter.
- JavaScript numbers are modelled as unbounded integers. Ids here are small row numbers, so no rounding occurs.
- The history's string keys `${a}-${b}` are modelled as integer tuples. For the non-negative ids used here the key determines the tuple.

## Findings

| source | as written | input that shows it | evidently intended | confidence | as-written member | corrected member |
|---|---|---|---|---|---|---|
| src/components/NicknameTable.tsx:133-139 | the reset effect depends on `onEntriesChange`; the page passes a new function on every render, and every edit re-renders the page, so once `resetTrigger > 0` every edit is followed by a reset; the reset itself reports its row through `onEntriesChange`, which re-renders the page and can fire the effect again | after one "reset matching" (trigger 1), type "a" into row 1: the row goes back to blank | reset the table only when the trigger changes | medium, not executed | `NicknameTable.EditLostAfterReset` | `NicknameTable.EditsSurviveRender` |

=== FILE: app.dfy ===
/**
  The page's state and the handlers that drive the pairing engine: basic
  matching over the nickname table, friend matching over the friend table,
  promoting a pair to friends, and the reset of the matching section.
  `alert` becomes an error message next to an unchanged state, and
  `Math.random` becomes the index choices `js`.
 */
module App {
  import opened Entries
  import opened Shuffling
  import opened Pairing
  import opened FriendPairing
  import opened FriendCoverage
  import opened EntryTable
  import NicknameTable
  import FriendSection

  /** The state hooks of the page. */
  datatype AppState = AppState(
    entries: seq<Entry>,
    results: seq<Pair>,
    friendResults: seq<Pair>,
    previousFriends: History,
    friendsToAdd: seq<Entry>,
    resetTrigger: int)

  /** The state on first render. */
  const InitialApp: AppState := AppState([], [], [], {}, [], 0)

  /** The state after a handler, and the alert it showed, if any. */
  datatype Response = Response(state: AppState, alert: Option<string>)

  const MatchingAlert: string := "매칭을 위해서는 최소 2명의 닉네임이 필요합니다."
  const FriendMatchingAlert: string := "친구 매칭을 위해서는 최소 2명의 닉네임이 필요합니다."

  /**
    `handleMatching`: with fewer than two non-blank rows, alert and change
    nothing; otherwise shuffle the non-blank rows and store their pairing
    as the results, leaving everything else alone.
   */
  function HandleMatching(app: AppState, js: seq<int>): (r: Response)
    requires ValidChoices(js, |ValidEntries(app.entries)|)
    ensures var n := |ValidEntries(app.entries)|;
            && (r.alert.Some? <==> n < 2)
            && (r.alert.Some? ==> r == Response(app, Some(MatchingAlert)))
            && (r.alert.None? ==> r.state == app.(results := r.state.results) && |r.state.results| == (n + 1) / 2)
  {
    var valid := ValidEntries(app.entries);
    if |valid| < 2 then Response(app, Some(MatchingAlert))
    else Response(app.(results := PairUp(Shuffle(valid, js))), None)
  }

  /**
    After a successful match every non-blank row is a player of exactly one
    pair, and the only other player is one sentinel when the count is odd.
   */
  lemma MatchingCovers(app: AppState, js: seq<int>)
    requires ValidChoices(js, |ValidEntries(app.entries)|)
    requires |ValidEntries(app.entries)| >= 2
    ensures var valid := ValidEntries(app.entries);
            multiset(Flatten(HandleMatching(app, js).state.results)) == multiset(valid) + SentinelIfOdd(|valid|)
  {
    PairUpCovers(Shuffle(ValidEntries(app.entries), js));
  }

  /** A shuffle of the non-blank rows holds only non-blank rows. */
  lemma ShuffledRowsValid(es: seq<Entry>, js: seq<int>)
    requires ValidChoices(js, |ValidEntries(es)|)
    ensures var s := Shuffle(ValidEntries(es), js);
            forall x :: x in s ==> x in es && IsValid(x)
  {
    var valid := ValidEntries(es);
    ShuffleMembers(valid, js);
    forall x | x in valid
      ensures x in es && IsValid(x)
    {
      var i :| 0 <= i < |valid| && valid[i] == x;
    }
  }

  /**
    A successful match never pairs a blank row: first players are non-blank
    rows, and second players are non-blank rows or the sentinel.
   */
  lemma MatchingPlayersValid(app: AppState, js: seq<int>)
    requires ValidChoices(js, |ValidEntries(app.entries)|)
    ensures var r := HandleMatching(app, js);
            var res := r.state.results;
            r.alert.None? ==> forall k :: 0 <= k < |res| ==>
              && res[k].player1 in app.entries && IsValid(res[k].player1)
              && (res[k].player2 == Sentinel || (res[k].player2 in app.entries && IsValid(res[k].player2)))
  {
    var valid := ValidEntries(app.entries);
    if |valid| >= 2 {
      ShuffledRowsValid(app.entries, js);
      PairUpPlayers(Shuffle(valid, js));
    }
  }

  /** The sentinel is not blank either, so every player of a result has a non-blank nickname. */
  lemma MatchingNicknamesNonBlank(app: AppState, js: seq<int>)
    requires ValidChoices(js, |ValidEntries(app.entries)|)
    ensures var r := HandleMatching(app, js);
            var res := r.state.results;
            r.alert.None? ==> forall k :: 0 <= k < |res| ==> IsValid(res[k].player1) && IsValid(res[k].player2)
  {
    MatchingPlayersValid(app, js);
    WaitingIsNotBlank();
    assert IsValid(Sentinel);
  }

  /**
    `handleFriendMatch(friendEntries)`: with fewer than two non-blank rows,
    alert and change nothing; otherwise shuffle them, run both passes
    against the history and store the result as the friend results.
   */
  function HandleFriendMatch(app: AppState, friendEntries: seq<Entry>, js: seq<int>): (r: Response)
    requires ValidChoices(js, |ValidEntries(friendEntries)|)
    ensures var n := |ValidEntries(friendEntries)|;
            && (r.alert.Some? <==> n < 2)
            && (r.alert.Some? ==> r == Response(app, Some(FriendMatchingAlert)))
            && (r.alert.None? ==> r.state == app.(friendResults := r.state.friendResults))
  {
    var valid := ValidEntries(friendEntries);
    if |valid| < 2 then Response(app, Some(FriendMatchingAlert))
    else Response(app.(friendResults := FriendPairs(Shuffle(valid, js), app.previousFriends)), None)
  }

  /**
    With distinct ids (as on the friend table, whose rows are numbered
    `1..n`) every non-blank row is a player of exactly one friend pair, the
    only other player is one sentinel when the count is odd, there are
    `ceil(n / 2)` pairs and the sentinel pair comes last.
   */
  lemma FriendMatchCovers(app: AppState, friendEntries: seq<Entry>, js: seq<int>)
    requires ValidChoices(js, |ValidEntries(friendEntries)|)
    requires |ValidEntries(friendEntries)| >= 2 && DistinctIds(friendEntries)
    ensures var valid := ValidEntries(friendEntries);
            var res := HandleFriendMatch(app, friendEntries, js).state.friendResults;
            && multiset(Flatten(res)) == multiset(valid) + SentinelIfOdd(|valid|)
            && |res| == (|valid| + 1) / 2
            && (|valid| % 2 == 1 ==> res[|res| - 1].player2 == Sentinel)
  {
    var valid := ValidEntries(friendEntries);
    FilterKeepsDistinctIds(friendEntries, IsValid);
    ShuffleKeepsDistinctIds(valid, js);
    FriendPairsCover(Shuffle(valid, js), app.previousFriends);
  }

  /** The rows of a well-formed friend table have distinct ids, so the coverage above applies to it. */
  lemma FriendTableCovers(app: AppState, rows: seq<Entry>, js: seq<int>)
    requires ValidChoices(js, |ValidEntries(rows)|)
    requires |ValidEntries(rows)| >= 2 && WellFormed(rows)
    ensures var valid := ValidEntries(rows);
            var res := HandleFriendMatch(app, rows, js).state.friendResults;
            multiset(Flatten(res)) == multiset(valid) + SentinelIfOdd(|valid|)
  {
    NumberedDistinct(rows);
    FriendMatchCovers(app, rows, js);
  }

  /**
    With no friend history, friend matching over some rows gives exactly the
    pairs basic matching gives over the same rows with the same random
    choices.
   */
  lemma FriendMatchWithoutHistory(app: AppState, friendEntries: seq<Entry>, js: seq<int>)
    requires ValidChoices(js, |ValidEntries(friendEntries)|)
    requires app.previousFriends == {} && DistinctIds(friendEntries)
    ensures HandleFriendMatch(app, friendEntries, js).state.friendResults ==
            HandleMatching(app.(entries := friendEntries), js).state.results ||
            |ValidEntries(friendEntries)| < 2
  {
    var valid := ValidEntries(friendEntries);
    if |valid| >= 2 {
      FilterKeepsDistinctIds(friendEntries, IsValid);
      ShuffleKeepsDistinctIds(valid, js);
      FriendPairsWithoutHistory(Shuffle(valid, js));
    }
  }

  /**
    `handleAddFriend(pair)`: queue the first player, and the second unless it
    is the sentinel, for the friend table with the placeholder id 0; and,
    unless the second player is the sentinel, record the pair in both
    orders in the history.
   */
  function HandleAddFriend(app: AppState, pair: Pair): (r: AppState)
    ensures r == app.(previousFriends := r.previousFriends, friendsToAdd := r.friendsToAdd)
    ensures app.previousFriends <= r.previousFriends
    ensures |r.friendsToAdd| == if pair.player2.nickname == Waiting then 1 else 2
    ensures r.friendsToAdd[0] == Entry(0, pair.player1.nickname)
    ensures pair.player2.nickname != Waiting ==> r.friendsToAdd[1] == Entry(0, pair.player2.nickname)
    ensures pair.player2.nickname == Waiting ==> r.previousFriends == app.previousFriends
    ensures pair.player2.nickname != Waiting ==>
              && (pair.player1.id, pair.player2.id) in r.previousFriends
              && (pair.player2.id, pair.player1.id) in r.previousFriends
              && r.previousFriends - app.previousFriends <= {(pair.player1.id, pair.player2.id), (pair.player2.id, pair.player1.id)}
  {
    var a, b := pair.player1, pair.player2;
    var toAdd := [Entry(0, a.nickname)] + (if b.nickname != Waiting then [Entry(0, b.nickname)] else []);
    var history := if b.nickname != Waiting then app.previousFriends + {(a.id, b.id), (b.id, a.id)} else app.previousFriends;
    app.(friendsToAdd := toAdd, previousFriends := history)
  }

  /**
    After promoting a real pair the two ids exclude each other in either
    order, and no other combination changes status; promoting a waiting
    pair changes no combination.
   */
  lemma AddFriendExclusion(app: AppState, pair: Pair, x: int, y: int)
    ensures var h := HandleAddFriend(app, pair).previousFriends;
            var a, b := pair.player1.id, pair.player2.id;
            Excluded(h, x, y) <==>
              Excluded(app.previousFriends, x, y) ||
              (pair.player2.nickname != Waiting && ((x == a && y == b) || (x == b && y == a)))
  {
  }

  /** Promoting the same pair twice records nothing more in the history. */
  lemma AddFriendTwice(app: AppState, pair: Pair)
    ensures HandleAddFriend(HandleAddFriend(app, pair), pair) == HandleAddFriend(app, pair)
  {
  }

  /**
    Once the queued players reach the friend table, each promoted nickname
    is in a row of it (before its closing blank row), and the rows stay
    numbered.
   */
  lemma AddFriendReachesTable(app: AppState, pair: Pair, rows: seq<Entry>)
    ensures var toAdd := HandleAddFriend(app, pair).friendsToAdd;
            var t := FriendSection.MergeFriends(rows, toAdd);
            && WellFormed(t)
            && (exists i :: 0 <= i < |t| - 1 && t[i].nickname == pair.player1.nickname)
            && (pair.player2.nickname != Waiting ==>
                  exists i :: 0 <= i < |t| - 1 && t[i].nickname == pair.player2.nickname)
  {
    var toAdd := HandleAddFriend(app, pair).friendsToAdd;
    var current := Nicknames(ValidEntries(rows));
    FriendSection.MergeAddsEveryFriend(current, toAdd);
    assert toAdd[0].nickname == pair.player1.nickname;
  }

  /** `handleResetMatching`: clear the rows and results and bump the table's reset trigger. */
  function ResetMatching(app: AppState): (r: AppState)
    ensures r.entries == [] && r.results == []
    ensures r.resetTrigger > app.resetTrigger
    ensures r == app.(entries := [], results := [], resetTrigger := r.resetTrigger)
  {
    app.(entries := [], results := [], resetTrigger := app.resetTrigger + 1)
  }

  /**
    From a non-negative trigger (the counter starts at 0 and only grows), a
    reset always brings the nickname table, whatever its rows, back to one
    blank row, and reports that row to the page.
   */
  lemma ResetMatchingClearsTable(app: AppState, rows: seq<Entry>)
    requires app.resetTrigger >= 0 && |rows| > 0
    ensures var out := NicknameTable.Step(rows, NicknameTable.ResetTrigger(ResetMatching(app).resetTrigger));
            out.entries == Initial && out.reported == Some(Initial)
  {
  }
}

=== FILE: entries.dfy ===
/**
  The records the pairing engine works on.

  A table row is `{id, nickname}`; a match result player is `{number, nickname}`
  built field by field from a row, so both are modelled by one `Entry` whose
  `id` is the row id and the player number.  A match result is a pair of
  players; an odd leftover is paired with the waiting sentinel
  `{number: 0, nickname: "대기"}`.
 */
module Entries {
  import opened Seqs

  datatype Option<T> = None | Some(value: T)

  datatype Entry = Entry(id: int, nickname: string)

  datatype Pair = Pair(player1: Entry, player2: Entry)

  /** The nickname that marks the waiting partner of an odd leftover. */
  const Waiting: string := "대기"

  /** The waiting sentinel `{number: 0, nickname: "대기"}`. */
  const Sentinel: Entry := Entry(0, Waiting)

  /** The pair an odd leftover `e` ends up in. */
  function WaitPair(e: Entry): Pair {
    Pair(e, Sentinel)
  }

  /**
    The characters JavaScript's `String.prototype.trim` removes: the
    ECMAScript WhiteSpace (tab, vertical tab, form feed, space, no-break
    space, byte order mark and the space separators) and LineTerminator
    (line feed, carriage return, line and paragraph separators) code points.
   */
  predicate IsSpace(c: char) {
    || c == '\t' || c == '\n' || c == '\U{B}' || c == '\U{C}' || c == '\r'
    || c == ' ' || c == '\U{A0}' || c == '\U{1680}'
    || ('\U{2000}' <= c <= '\U{200A}')
    || c == '\U{2028}' || c == '\U{2029}' || c == '\U{202F}' || c == '\U{205F}'
    || c == '\U{3000}' || c == '\U{FEFF}'
  }

  /** `s` without its leading white space. */
  function TrimStart(s: string): (r: string)
    ensures |r| <= |s| && r == s[|s| - |r|..]
    ensures forall i :: 0 <= i < |s| - |r| ==> IsSpace(s[i])
    ensures |r| > 0 ==> !IsSpace(r[0])
  {
    if |s| > 0 && IsSpace(s[0]) then TrimStart(s[1..]) else s
  }

  /** `s` without its trailing white space. */
  function TrimEnd(s: string): (r: string)
    ensures |r| <= |s| && r == s[..|r|]
    ensures forall i :: |r| <= i < |s| ==> IsSpace(s[i])
    ensures |r| > 0 ==> !IsSpace(r[|r| - 1])
  {
    if |s| > 0 && IsSpace(s[|s| - 1]) then TrimEnd(s[..|s| - 1]) else s
  }

  /**
    JavaScript's `s.trim()`: the part of `s` left after removing the longest
    white-space prefix and the longest white-space suffix.
   */
  function Trim(s: string): (r: string)
    ensures var k := |s| - |TrimStart(s)|;
            && k + |r| <= |s| && r == s[k..k + |r|]
            && (forall i :: 0 <= i < k ==> IsSpace(s[i]))
            && (forall i :: k + |r| <= i < |s| ==> IsSpace(s[i]))
    ensures |r| > 0 ==> !IsSpace(r[0]) && !IsSpace(r[|r| - 1])
  {
    var t := TrimStart(s);
    var r := TrimEnd(t);
    TrimmedSlice(s, t, r);
    r
  }

  /**
    A prefix `r` of a suffix `t` of `s` is the slice of `s` starting where
    `t` does; if `t` only drops white space after `r`, so does `s`.
   */
  lemma TrimmedSlice(s: string, t: string, r: string)
    requires |t| <= |s| && t == s[|s| - |t|..]
    requires |r| <= |t| && r == t[..|r|]
    requires forall i :: |r| <= i < |t| ==> IsSpace(t[i])
    requires |t| > 0 ==> !IsSpace(t[0])
    ensures var k := |s| - |t|;
            && k + |r| <= |s| && r == s[k..k + |r|]
            && (forall i :: k + |r| <= i < |s| ==> IsSpace(s[i]))
            && (|r| > 0 ==> !IsSpace(r[0]))
  {
    var k := |s| - |t|;
    forall i | k + |r| <= i < |s|
      ensures IsSpace(s[i])
    {
      assert s[i] == t[i - k];
    }
    if |r| > 0 {
      assert r[0] == t[0];
    }
  }

  /**
    A nickname is blank when `nickname.trim() === ''`, stated through the
    characters `trim` removes: every character is white space
    (`BlankIffTrimsEmpty`).
   */
  predicate IsBlank(s: string) {
    forall i :: 0 <= i < |s| ==> IsSpace(s[i])
  }

  /** A nickname trims to the empty string exactly when it is blank. */
  lemma BlankIffTrimsEmpty(s: string)
    ensures IsBlank(s) <==> Trim(s) == ""
  {
    var t := TrimStart(s);
    if |t| > 0 {
      assert s[|s| - |t|] == t[0];
      assert |TrimEnd(t)| > 0;
    }
  }

  /** The waiting nickname is not blank, so the sentinel is never filtered out as a blank row. */
  lemma WaitingIsNotBlank()
    ensures !IsBlank(Waiting) && Trim(Waiting) != ""
  {
    assert !IsSpace(Waiting[0]);
    BlankIffTrimsEmpty(Waiting);
  }

  /** A row takes part in matching when its nickname is not blank. */
  predicate IsValid(e: Entry) {
    !IsBlank(e.nickname)
  }

  /** `entries.filter(entry => entry.nickname.trim() !== '')`. */
  function ValidEntries(es: seq<Entry>): (r: seq<Entry>)
    ensures forall i :: 0 <= i < |r| ==> r[i] in es && IsValid(r[i])
    ensures forall i :: 0 <= i < |es| && IsValid(es[i]) ==> es[i] in r
  {
    Filter(es, IsValid)
  }

  /** No two entries share an id. */
  predicate DistinctIds(s: seq<Entry>) {
    forall i, j :: 0 <= i < j < |s| ==> s[i].id != s[j].id
  }

  /** An entry whose id no entry of `rest` carries can go in front of distinct `rest`. */
  lemma ConsDistinct(x: Entry, rest: seq<Entry>)
    requires DistinctIds(rest)
    requires forall k :: 0 <= k < |rest| ==> rest[k].id != x.id
    ensures DistinctIds([x] + rest)
  {
    var s := [x] + rest;
    assert forall k :: 0 < k < |s| ==> s[k] == rest[k - 1];
  }

  /** The entries after the head of a list with distinct ids avoid the head's id. */
  lemma HeadIdUnique(s: seq<Entry>, t: seq<Entry>)
    requires |s| > 0 && DistinctIds(s)
    requires forall k :: 0 <= k < |t| ==> t[k] in s[1..]
    ensures forall k :: 0 <= k < |t| ==> t[k].id != s[0].id
  {
    forall k | 0 <= k < |t|
      ensures t[k].id != s[0].id
    {
      var m :| 0 <= m < |s[1..]| && s[1..][m] == t[k];
      assert s[m + 1] == t[k];
    }
  }

  /** Dropping entries keeps ids distinct. */
  lemma {:induction false} FilterKeepsDistinctIds(s: seq<Entry>, p: Entry -> bool)
    requires DistinctIds(s)
    ensures DistinctIds(Filter(s, p))
  {
    if |s| > 0 {
      var rest := Filter(s[1..], p);
      assert DistinctIds(s[1..]);
      FilterKeepsDistinctIds(s[1..], p);
      if p(s[0]) {
        assert Filter(s, p) == [s[0]] + rest;
        HeadIdUnique(s, rest);
        ConsDistinct(s[0], rest);
      } else {
        assert Filter(s, p) == rest;
      }
    }
  }

  /** The players of a list of pairs, two per pair, in order. */
  function Flatten(ps: seq<Pair>): (r: seq<Entry>)
    ensures |r| == 2 * |ps|
  {
    if |ps| == 0 then [] else [ps[0].player1, ps[0].player2] + Flatten(ps[1..])
  }

  lemma {:induction false} FlattenConcat(a: seq<Pair>, b: seq<Pair>)
    ensures Flatten(a + b) == Flatten(a) + Flatten(b)
  {
    if |a| > 0 {
      assert (a + b)[1..] == a[1..] + b;
      FlattenConcat(a[1..], b);
    } else {
      assert a + b == b;
    }
  }
}

=== FILE: entry_table.dfy ===
/**
  The row edits shared, line for line, by the nickname table of the basic
  matcher and the friend table: typing a nickname, removing a row and
  renumbering, blanking a row but keeping its number, appending a row, and
  Enter in a row.  Each is a function from the current rows to the next
  rows; focus handling and timers are not part of the state.
 */
module EntryTable {
  import opened Seqs
  import opened Entries

  /** The rows carry the numbers `1, 2, ..., n` in order. */
  predicate Numbered(es: seq<Entry>) {
    forall i :: 0 <= i < |es| ==> es[i].id == i + 1
  }

  /** The state a table starts in and returns to on reset: one blank row numbered 1. */
  const Initial: seq<Entry> := [Entry(1, "")]

  /** `es.map((entry, index) => ({ ...entry, id: index + 1 }))`. */
  function Renumber(es: seq<Entry>): (r: seq<Entry>)
    ensures |r| == |es| && Numbered(r)
    ensures forall i :: 0 <= i < |es| ==> r[i].nickname == es[i].nickname
  {
    seq(|es|, i requires 0 <= i < |es| => Entry(i + 1, es[i].nickname))
  }

  /** `es.map(entry => entry.nickname)`. */
  function Nicknames(es: seq<Entry>): (r: seq<string>)
    ensures |r| == |es| && forall i :: 0 <= i < |es| ==> r[i] == es[i].nickname
  {
    seq(|es|, i requires 0 <= i < |es| => es[i].nickname)
  }

  /** `names.map((nickname, index) => ({ id: index + 1, nickname }))`. */
  function Numbering(names: seq<string>): (r: seq<Entry>)
    ensures |r| == |names| && Numbered(r) && Nicknames(r) == names
  {
    seq(|names|, i requires 0 <= i < |names| => Entry(i + 1, names[i]))
  }

  /** Renumbering rows that are already numbered changes nothing. */
  lemma RenumberNumbered(es: seq<Entry>)
    requires Numbered(es)
    ensures Renumber(es) == es
  {
  }

  /** Numbered rows have distinct ids. */
  lemma NumberedDistinct(es: seq<Entry>)
    requires Numbered(es)
    ensures DistinctIds(es)
  {
  }

  /** `handleInputChange(id, value)`: every row whose id is `id` gets the nickname `value`. */
  function SetNickname(es: seq<Entry>, id: int, value: string): (r: seq<Entry>)
    ensures |r| == |es|
    ensures forall i :: 0 <= i < |es| ==> r[i].id == es[i].id
    ensures forall i :: 0 <= i < |es| && es[i].id == id ==> r[i].nickname == value
    ensures forall i :: 0 <= i < |es| && es[i].id != id ==> r[i] == es[i]
  {
    seq(|es|, i requires 0 <= i < |es| => if es[i].id == id then Entry(id, value) else es[i])
  }

  /**
    On numbered rows an edit touches exactly row `id`, if there is one, and
    keeps the numbering.
   */
  lemma SetNicknameNumbered(es: seq<Entry>, id: int, value: string)
    requires Numbered(es)
    ensures Numbered(SetNickname(es, id, value))
    ensures 1 <= id <= |es| ==> SetNickname(es, id, value) == es[id - 1 := Entry(id, value)]
    ensures !(1 <= id <= |es|) ==> SetNickname(es, id, value) == es
  {
  }

  /** `handleKeepNumberRemove(id)`: row `id` is blanked but keeps its number. */
  function BlankRow(es: seq<Entry>, id: int): (r: seq<Entry>)
    ensures |r| == |es|
    ensures forall i :: 0 <= i < |es| ==> r[i].id == es[i].id
    ensures forall i :: 0 <= i < |es| && es[i].id == id ==> r[i].nickname == ""
    ensures forall i :: 0 <= i < |es| && es[i].id != id ==> r[i] == es[i]
  {
    SetNickname(es, id, "")
  }

  /** A blanked row drops out of matching; every other row keeps its nickname. */
  lemma BlankRowDropsOut(es: seq<Entry>, id: int)
    ensures forall i :: 0 <= i < |es| ==> (IsValid(BlankRow(es, id)[i]) <==> es[i].id != id && IsValid(es[i]))
  {
  }

  /**
    `handleRemove(id)`: a table of one row is left alone; otherwise the rows
    with id `id` are dropped and the rest renumbered.
   */
  function RemoveRow(es: seq<Entry>, id: int): (r: seq<Entry>)
    ensures |es| <= 1 ==> r == es
    ensures |es| > 1 ==> Numbered(r) && |r| <= |es|
  {
    if |es| <= 1 then es else Renumber(Filter(es, (e: Entry) => e.id != id))
  }

  /** Numbered rows split around row `id` into rows numbered below it and rows numbered above it. */
  lemma AroundRow(es: seq<Entry>, id: int) returns (front: seq<Entry>, back: seq<Entry>)
    requires Numbered(es) && 1 <= id <= |es|
    ensures front == es[..id - 1] && back == es[id..]
    ensures es == front + [es[id - 1]] + back && es[id - 1].id == id
    ensures forall i :: 0 <= i < |front| ==> front[i].id != id
    ensures forall i :: 0 <= i < |back| ==> back[i].id != id
  {
    front, back := es[..id - 1], es[id..];
    assert front + [es[id - 1]] == es[..id];
    assert es[..id] + back == es;
  }

  /** The rows of numbered rows other than row `id` are `es` without position `id - 1`. */
  lemma FilterOutRow(es: seq<Entry>, id: int)
    requires Numbered(es) && 1 <= id <= |es|
    ensures Filter(es, (e: Entry) => e.id != id) == es[..id - 1] + es[id..]
  {
    var front, back := AroundRow(es, id);
    FilterDropsOne(front, es[id - 1], back, (e: Entry) => e.id != id);
  }

  /** Renumbering the rows of a numbered table without row `id` shifts the later rows down by one. */
  lemma RenumberWithout(es: seq<Entry>, id: int)
    requires Numbered(es) && 1 <= id <= |es|
    ensures var r := Renumber(es[..id - 1] + es[id..]);
            && |r| == |es| - 1
            && (forall i :: 0 <= i < id - 1 ==> r[i] == es[i])
            && (forall i :: id - 1 <= i < |r| ==> r[i] == Entry(i + 1, es[i + 1].nickname))
  {
    var t := es[..id - 1] + es[id..];
    assert forall i :: 0 <= i < id - 1 ==> t[i] == es[i];
    assert forall i :: id - 1 <= i < |t| ==> t[i] == es[i + 1];
  }

  /**
    On numbered rows with more than one row, removing row `id` closes the gap:
    the row that was at position `i` moves to `i - 1` when it came after the
    removed row, and everything is renumbered `1..n - 1`.  Removing a number
    that is not in the table changes nothing.
   */
  lemma RemoveRowNumbered(es: seq<Entry>, id: int)
    requires Numbered(es) && |es| > 1
    ensures 1 <= id <= |es| ==>
              var r := RemoveRow(es, id);
              && |r| == |es| - 1
              && (forall i :: 0 <= i < id - 1 ==> r[i] == es[i])
              && (forall i :: id - 1 <= i < |r| ==> r[i] == Entry(i + 1, es[i + 1].nickname))
    ensures !(1 <= id <= |es|) ==> RemoveRow(es, id) == es
  {
    if 1 <= id <= |es| {
      FilterOutRow(es, id);
      RenumberWithout(es, id);
    } else {
      FilterKeepsAll(es, (e: Entry) => e.id != id);
      RenumberNumbered(es);
    }
  }

  /** `Math.max(...es.map(e => e.id))`, which needs at least one row. */
  function MaxId(es: seq<Entry>): (r: int)
    requires |es| > 0
    ensures forall i :: 0 <= i < |es| ==> es[i].id <= r
    ensures exists i :: 0 <= i < |es| && es[i].id == r
  {
    if |es| == 1 then es[0].id
    else
      var m := MaxId(es[1..]);
      assert forall i :: 1 <= i < |es| ==> es[i] == es[1..][i - 1];
      if es[0].id >= m then es[0].id else m
  }

  /** `handleAddRow` / `addNewRow`: append a blank row numbered one above the largest id. */
  function AppendRow(es: seq<Entry>): (r: seq<Entry>)
    requires |es| > 0
    ensures |r| == |es| + 1 && r[..|es|] == es && r[|es|].nickname == ""
    ensures forall i :: 0 <= i < |es| ==> es[i].id < r[|es|].id
  {
    es + [Entry(MaxId(es) + 1, "")]
  }

  /** On numbered rows the appended row is `n + 1`, so the numbering is kept. */
  lemma AppendRowNumbered(es: seq<Entry>)
    requires Numbered(es) && |es| > 0
    ensures AppendRow(es) == es + [Entry(|es| + 1, "")]
    ensures Numbered(AppendRow(es))
  {
    assert es[|es| - 1].id == |es|;
    var i :| 0 <= i < |es| && es[i].id == MaxId(es);
    assert MaxId(es) == |es|;
    assert AppendRow(es) == es + [Entry(MaxId(es) + 1, "")];
  }

  /** `es.findIndex(entry => entry.id === id)`: the first row with id `id`, or -1. */
  function FindIndex(es: seq<Entry>, id: int): (r: int)
    ensures -1 <= r < |es|
    ensures r >= 0 ==> es[r].id == id && forall k :: 0 <= k < r ==> es[k].id != id
    ensures r == -1 ==> forall k :: 0 <= k < |es| ==> es[k].id != id
  {
    if |es| == 0 then -1
    else if es[0].id == id then 0
    else
      var k := FindIndex(es[1..], id);
      if k == -1 then -1 else k + 1
  }

  /** Enter in row `id` appends a row when that row is the last one (`findIndex` is `length - 1`). */
  predicate EnterAppends(es: seq<Entry>, key: string, id: int) {
    key == "Enter" && FindIndex(es, id) == |es| - 1
  }

  /**
    `handleKeyPress(e, id)`: Enter in the last row appends a row; Enter in
    any other row only moves the focus, and any other key does nothing.
   */
  function PressKey(es: seq<Entry>, key: string, id: int): (r: seq<Entry>)
    requires |es| > 0
    ensures key != "Enter" ==> r == es
  {
    if EnterAppends(es, key, id) then AppendRow(es) else es
  }

  /** On numbered rows, row `id` is at position `id - 1`. */
  lemma FindIndexNumbered(es: seq<Entry>, id: int)
    requires Numbered(es)
    ensures FindIndex(es, id) == if 1 <= id <= |es| then id - 1 else -1
  {
    var k := FindIndex(es, id);
    if 1 <= id <= |es| {
      assert es[id - 1].id == id;
    }
  }

  /** On numbered rows, Enter appends exactly when it is pressed in row `n`. */
  lemma EnterAppendsNumbered(es: seq<Entry>, key: string, id: int)
    requires Numbered(es) && |es| > 0
    ensures EnterAppends(es, key, id) <==> key == "Enter" && id == |es|
  {
    FindIndexNumbered(es, id);
  }

  /** On numbered rows, Enter appends row `n + 1` exactly when it is pressed in row `n`. */
  lemma PressKeyNumbered(es: seq<Entry>, key: string, id: int)
    requires Numbered(es) && |es| > 0
    ensures PressKey(es, key, id) == if key == "Enter" && id == |es| then es + [Entry(|es| + 1, "")] else es
  {
    AppendRowNumbered(es);
    FindIndexNumbered(es, id);
  }

  /** The numbering invariant: the rows are numbered `1..n` and there is at least one. */
  predicate WellFormed(es: seq<Entry>) {
    |es| > 0 && Numbered(es)
  }

  lemma InitialWellFormed()
    ensures WellFormed(Initial) && Initial[0].nickname == ""
  {
  }
}

=== FILE: friend_coverage.dfy ===
/**
  Coverage of `handleFriendMatch`: when ids are distinct, every shuffled
  entry lands in exactly one pair, and with an empty history the result is
  the plain consecutive pairing.
 */
module FriendCoverage {
  import opened Seqs
  import opened Entries
  import opened Pairing
  import opened FriendPairing

  /** The complement of `Remaining`: the entries whose id has been used, in order (the same filter with the opposite test). */
  function Matched(s: seq<Entry>, used: set<int>): seq<Entry> {
    Filter(s, (e: Entry) => e.id in used)
  }

  /** `Matched` on a non-empty list: the head is taken exactly when its id is used. */
  lemma MatchedCons(s: seq<Entry>, used: set<int>)
    requires |s| > 0
    ensures Matched(s, used) == (if s[0].id in used then [s[0]] else []) + Matched(s[1..], used)
  {
  }

  /** Adding `x` to the tail of a list adds it to the multiset of the whole list. */
  lemma MultisetPrepend(h: seq<Entry>, b: seq<Entry>, b': seq<Entry>, x: Entry)
    requires multiset(b') == multiset(b) + multiset{x}
    ensures multiset(h + b') == multiset(h + b) + multiset{x}
  {
  }

  /** Used ids that no entry of `t` carries do not change which entries count as matched. */
  lemma {:induction false} MatchedAbsent(t: seq<Entry>, used: set<int>, a: int)
    requires forall k :: 0 <= k < |t| ==> t[k].id != a
    ensures Matched(t, used + {a}) == Matched(t, used)
  {
    if |t| > 0 {
      MatchedAbsent(t[1..], used, a);
    }
  }

  /** Marking the id of one more entry `x` used adds exactly `x` to the matched entries. */
  lemma {:induction false} MatchedGrow(s: seq<Entry>, used: set<int>, x: Entry)
    requires DistinctIds(s) && x in s && x.id !in used
    ensures multiset(Matched(s, used + {x.id})) == multiset(Matched(s, used)) + multiset{x}
  {
    if s[0] == x {
      HeadIdUnique(s, s[1..]);
      MatchedAbsent(s[1..], used, x.id);
      MatchedCons(s, used + {x.id});
      MatchedCons(s, used);
    } else {
      var k :| 0 <= k < |s| && s[k] == x;
      assert s[0].id != x.id;
      assert x in s[1..] by {
        assert s[1..][k - 1] == x;
      }
      MatchedGrow(s[1..], used, x);
      MatchedGrowStep(s, used, x);
    }
  }

  /** The step of `MatchedGrow` past a head that is not `x`. */
  lemma MatchedGrowStep(s: seq<Entry>, used: set<int>, x: Entry)
    requires |s| > 0 && s[0].id != x.id
    requires multiset(Matched(s[1..], used + {x.id})) == multiset(Matched(s[1..], used)) + multiset{x}
    ensures multiset(Matched(s, used + {x.id})) == multiset(Matched(s, used)) + multiset{x}
  {
    var h := if s[0].id in used then [s[0]] else [];
    MatchedCons(s, used + {x.id});
    MatchedCons(s, used);
    MultisetPrepend(h, Matched(s[1..], used), Matched(s[1..], used + {x.id}), x);
  }

  /** The matched and the remaining entries split the list. */
  lemma {:induction false} MatchedRemainingSplit(s: seq<Entry>, used: set<int>)
    ensures multiset(Matched(s, used)) + multiset(Remaining(s, used)) == multiset(s)
  {
    if |s| > 0 {
      MatchedRemainingSplit(s[1..], used);
      RemainingCons(s, used);
      SplitHead(s, s[0].id in used, Matched(s[1..], used), Remaining(s[1..], used), Matched(s, used), Remaining(s, used));
    }
  }

  /** Sending the head of `s` to exactly one of two lists that split its tail makes them split `s`. */
  lemma SplitHead(s: seq<Entry>, taken: bool, m: seq<Entry>, r: seq<Entry>, m': seq<Entry>, r': seq<Entry>)
    requires |s| > 0 && multiset(m) + multiset(r) == multiset(s[1..])
    requires m' == (if taken then [s[0]] else []) + m
    requires r' == (if taken then [] else [s[0]]) + r
    ensures multiset(m') + multiset(r') == multiset(s)
  {
    assert s == [s[0]] + s[1..];
  }

  /** The multiset bookkeeping of one pass-1 pair `(a, b)`. */
  lemma PairBookkeeping(rest: multiset<Entry>, before: multiset<Entry>, after: multiset<Entry>,
                        final: multiset<Entry>, a: Entry, b: Entry)
    requires after == before + multiset{a} + multiset{b}
    requires rest + after == final
    ensures multiset{a, b} + rest + before == final
  {
  }

  /** The players of a one-pair list followed by more pairs. */
  lemma FlattenCons(p: Pair, rest: seq<Pair>)
    ensures multiset(Flatten([p] + rest)) == multiset{p.player1, p.player2} + multiset(Flatten(rest))
  {
    FlattenConcat([p], rest);
    assert Flatten([p]) == [p.player1, p.player2];
  }

  /** Pairing `s[i]` with `s[j]` in front of the pairs `rest` keeps the coverage accounting. */
  lemma PairCovers(s: seq<Entry>, used: set<int>, i: nat, j: nat, rest: Pass1Result)
    requires i < j < |s| && DistinctIds(s) && s[i].id !in used && s[j].id !in used
    requires multiset(Flatten(rest.pairs)) + multiset(Matched(s, used + {s[i].id, s[j].id})) ==
             multiset(Matched(s, rest.used))
    ensures multiset(Flatten([Pair(s[i], s[j])] + rest.pairs)) + multiset(Matched(s, used)) ==
            multiset(Matched(s, rest.used))
  {
    var used1 := used + {s[i].id};
    var used2 := used + {s[i].id, s[j].id};
    MatchedGrow(s, used, s[i]);
    assert s[j].id != s[i].id;
    MatchedGrow(s, used1, s[j]);
    assert used1 + {s[j].id} == used2;
    FlattenCons(Pair(s[i], s[j]), rest.pairs);
    PairBookkeeping(multiset(Flatten(rest.pairs)), multiset(Matched(s, used)), multiset(Matched(s, used2)),
                    multiset(Matched(s, rest.used)), s[i], s[j]);
  }

  /**
    Pass 1 from index `i` emits each entry it marks used exactly once, as a
    player of one of its pairs.
   */
  lemma {:induction false} Pass1Covers(s: seq<Entry>, prev: History, i: nat, used: set<int>)
    requires i <= |s| && DistinctIds(s)
    ensures var r := Pass1(s, prev, i, used);
            multiset(Flatten(r.pairs)) + multiset(Matched(s, used)) == multiset(Matched(s, r.used))
    decreases |s| - i
  {
    if i == |s| {
    } else if s[i].id in used {
      Pass1Covers(s, prev, i + 1, used);
    } else {
      match FindPartner(s, prev, used, i, i + 1)
      case None =>
        Pass1Covers(s, prev, i + 1, used);
      case Some(j) =>
        var used2 := used + {s[i].id, s[j].id};
        Pass1Covers(s, prev, i + 1, used2);
        PairCovers(s, used, i, j, Pass1(s, prev, i + 1, used2));
    }
  }

  /** Nothing is matched before pass 1 starts. */
  lemma {:induction false} MatchedNone(s: seq<Entry>)
    ensures Matched(s, {}) == []
  {
    if |s| > 0 {
      MatchedNone(s[1..]);
    }
  }

  /** The players pass 1 emits and the leftovers it hands to pass 2 split the shuffled list. */
  lemma Pass1Split(s: seq<Entry>, prev: History)
    requires DistinctIds(s)
    ensures var p1 := Pass1(s, prev, 0, {});
            var rem := Remaining(s, p1.used);
            && multiset(Flatten(p1.pairs)) + multiset(rem) == multiset(s)
            && 2 * |p1.pairs| + |rem| == |s|
  {
    var p1 := Pass1(s, prev, 0, {});
    var rem := Remaining(s, p1.used);
    Pass1Covers(s, prev, 0, {});
    MatchedNone(s);
    MatchedRemainingSplit(s, p1.used);
    assert |multiset(Flatten(p1.pairs)) + multiset(rem)| == |multiset(s)|;
  }

  /** Pass 2 only pairs up leftovers, which all come from the shuffled list. */
  lemma Pass2Players(s: seq<Entry>, rem: seq<Entry>)
    requires forall k :: 0 <= k < |rem| ==> rem[k] in s
    ensures var r := PairUp(rem);
            && (forall k :: 0 <= k < |r| ==> r[k].player1 in s)
            && (forall k :: 0 <= k < |rem| / 2 ==> r[k].player2 in s)
  {
    PairUpPlayers(rem);
    forall x | x in rem
      ensures x in s
    {
      var i :| 0 <= i < |rem| && rem[i] == x;
    }
  }

  /** Multiset union regrouped. */
  lemma Regroup(x: multiset<Entry>, a: multiset<Entry>, b: multiset<Entry>, c: multiset<Entry>, d: multiset<Entry>)
    requires x == a + (b + c) && a + b == d
    ensures x == d + c
  {
  }

  /** Adding an even number keeps the parity. */
  lemma {:induction false} EvenShift(n: nat, a: nat, k: nat)
    requires n == a + 2 * k
    ensures n % 2 == a % 2
  {
    if k > 0 {
      EvenShift(n - 2, a, k - 1);
    }
  }

  /** Pass-1 pairs and leftovers that split `s` give the players `s`, plus a sentinel when `|s|` is odd. */
  lemma BothPassesPermute(s: seq<Entry>, pairs: seq<Pair>, rem: seq<Entry>)
    requires multiset(Flatten(pairs)) + multiset(rem) == multiset(s)
    requires 2 * |pairs| + |rem| == |s|
    ensures multiset(Flatten(pairs + PairUp(rem))) ==
            multiset(s) + SentinelIfOdd(|s|)
  {
    var tail := if |rem| % 2 == 1 then [Sentinel] else [];
    var extra := SentinelIfOdd(|s|);
    PairUpFlatten(rem);
    FlattenConcat(pairs, PairUp(rem));
    var all := Flatten(pairs + PairUp(rem));
    assert all == Flatten(pairs) + (rem + tail);
    EvenShift(|s|, |rem|, |pairs|);
    if |s| % 2 == 1 {
      assert tail == [Sentinel] && extra == multiset{Sentinel};
    } else {
      assert tail == [] && extra == multiset{};
    }
    assert multiset(all) == multiset(Flatten(pairs)) + (multiset(rem) + multiset(tail));
    Regroup(multiset(all), multiset(Flatten(pairs)), multiset(rem), multiset(tail), multiset(s));
  }

  /** There are `ceil(|s| / 2)` pairs and, when `|s|` is odd, the sentinel pair comes last. */
  lemma BothPassesShape(s: seq<Entry>, pairs: seq<Pair>, rem: seq<Entry>)
    requires 2 * |pairs| + |rem| == |s|
    ensures var r := pairs + PairUp(rem);
            && |r| == (|s| + 1) / 2
            && (|s| % 2 == 1 ==> r[|r| - 1].player2 == Sentinel)
  {
    var r := pairs + PairUp(rem);
    if |s| % 2 == 1 {
      assert r[|r| - 1] == PairUp(rem)[|PairUp(rem)| - 1];
    }
  }

  /** Apart from the sentinel, every player comes from `s`. */
  lemma BothPassesPlayers(s: seq<Entry>, pairs: seq<Pair>, rem: seq<Entry>)
    requires 2 * |pairs| + |rem| == |s|
    requires forall k :: 0 <= k < |pairs| ==> pairs[k].player1 in s && pairs[k].player2 in s
    requires forall k :: 0 <= k < |rem| ==> rem[k] in s
    ensures var r := pairs + PairUp(rem);
            && (forall k :: 0 <= k < |r| ==> r[k].player1 in s)
            && (forall k :: 0 <= k < |r| - |s| % 2 ==> r[k].player2 in s)
  {
    var r := pairs + PairUp(rem);
    Pass2Players(s, rem);
    forall k | |pairs| <= k < |r|
      ensures r[k].player1 in s
      ensures k < |r| - |s| % 2 ==> r[k].player2 in s
    {
      assert r[k] == PairUp(rem)[k - |pairs|];
    }
  }

  /**
    Given distinct ids, every entry of the shuffled list is a player of
    exactly one pair and the only other player is one sentinel when the
    count is odd; there are `ceil(n / 2)` pairs, the sentinel pair, if any,
    comes last, and every other player comes from the list.
   */
  lemma FriendPairsCover(s: seq<Entry>, prev: History)
    requires DistinctIds(s)
    ensures var r := FriendPairs(s, prev);
            && multiset(Flatten(r)) == multiset(s) + SentinelIfOdd(|s|)
            && |r| == (|s| + 1) / 2
            && (forall k :: 0 <= k < |r| ==> r[k].player1 in s)
            && (forall k :: 0 <= k < |r| - |s| % 2 ==> r[k].player2 in s)
            && (|s| % 2 == 1 ==> r[|r| - 1].player2 == Sentinel)
  {
    var p1 := Pass1(s, prev, 0, {});
    Pass1Split(s, prev);
    var rem := Remaining(s, p1.used);
    BothPassesPermute(s, p1.pairs, rem);
    BothPassesShape(s, p1.pairs, rem);
    BothPassesPlayers(s, p1.pairs, rem);
  }

  /** The ids of the entries of `t`. */
  function IdsOf(t: seq<Entry>): set<int> {
    set k | 0 <= k < |t| :: t[k].id
  }

  /**
    With an empty history and the first `i` (even) entries already paired,
    pass 1 pairs the rest consecutively and leaves only an odd last entry.
   */
  lemma {:induction false} Pass1WithoutHistory(s: seq<Entry>, i: nat)
    requires DistinctIds(s) && i <= |s| && i % 2 == 0
    ensures Pass1(s, {}, i, IdsOf(s[..i])) == Pass1Result(ConsecutivePairs(s[i..]), IdsOf(s[..|s| - |s| % 2]))
    decreases |s| - i
  {
    var used := IdsOf(s[..i]);
    if i == |s| {
      assert s[..|s| - |s| % 2] == s[..i];
    } else {
      PrefixIdsExclude(s, i, i);
      if i + 1 == |s| {
        assert FindPartner(s, {}, used, i, i + 1) == None;
        assert s[..|s| - |s| % 2] == s[..i];
      } else {
        Pass1PairsNext(s, i);
        Pass1WithoutHistory(s, i + 2);
        assert s[i..][2..] == s[i + 2..];
      }
    }
  }

  /** With distinct ids, no entry from position `i` on carries the id of an entry before it. */
  lemma PrefixIdsExclude(s: seq<Entry>, i: nat, j: nat)
    requires DistinctIds(s) && i <= j < |s|
    ensures s[j].id !in IdsOf(s[..i])
  {
    forall k | 0 <= k < i
      ensures s[..i][k].id != s[j].id
    {
      assert s[..i][k] == s[k];
    }
  }

  /** With an empty history and the first `i` ids used, pass 1 pairs `s[i]` with `s[i + 1]` and moves on to `i + 2`. */
  lemma Pass1PairsNext(s: seq<Entry>, i: nat)
    requires DistinctIds(s) && i + 1 < |s|
    ensures var rest := Pass1(s, {}, i + 2, IdsOf(s[..i + 2]));
            Pass1(s, {}, i, IdsOf(s[..i])) == Pass1Result([Pair(s[i], s[i + 1])] + rest.pairs, rest.used)
  {
    var used := IdsOf(s[..i]);
    PrefixIdsExclude(s, i, i);
    PrefixIdsExclude(s, i, i + 1);
    assert FindPartner(s, {}, used, i, i + 1) == Some(i + 1);
    var used' := used + {s[i].id, s[i + 1].id};
    assert used' == IdsOf(s[..i + 2]) by {
      assert s[..i + 2] == s[..i] + [s[i], s[i + 1]];
    }
    assert Pass1(s, {}, i + 1, used') == Pass1(s, {}, i + 2, used');
  }

  /** Once the ids of the first `m` entries are used, the leftovers are exactly `s[m..]`. */
  lemma RemainingAfterPrefix(s: seq<Entry>, m: nat)
    requires DistinctIds(s) && m <= |s|
    ensures Remaining(s, IdsOf(s[..m])) == s[m..]
  {
    var used := IdsOf(s[..m]);
    assert s == s[..m] + s[m..];
    FilterConcat(s[..m], s[m..], (e: Entry) => e.id !in used);
    forall k | 0 <= k < m
      ensures s[..m][k].id in used
    {
    }
    FilterDropsAll(s[..m], (e: Entry) => e.id !in used);
    SuffixAvoidsPrefixIds(s, m);
    FilterKeepsAll(s[m..], (e: Entry) => e.id !in used);
  }

  /** With distinct ids, no entry after position `m` carries the id of an entry before it. */
  lemma SuffixAvoidsPrefixIds(s: seq<Entry>, m: nat)
    requires DistinctIds(s) && m <= |s|
    ensures forall k :: 0 <= k < |s[m..]| ==> s[m..][k].id !in IdsOf(s[..m])
  {
    forall k | 0 <= k < |s[m..]|
      ensures s[m..][k].id !in IdsOf(s[..m])
    {
      forall q | 0 <= q < m
        ensures s[..m][q].id != s[m..][k].id
      {
        assert s[..m][q] == s[q] && s[m..][k] == s[m + k];
      }
    }
  }

  /** An empty list gives no pairs and a single entry gives its waiting pair. */
  lemma PairUpShort(t: seq<Entry>)
    requires |t| <= 1
    ensures PairUp(t) == if |t| == 1 then [WaitPair(t[0])] else []
  {
    assert ConsecutivePairs(t) == [];
  }

  /** The basic pairing is the consecutive pairs followed by the pairing of an odd last entry. */
  lemma PairUpSplit(s: seq<Entry>)
    ensures PairUp(s) == ConsecutivePairs(s) + PairUp(s[|s| - |s| % 2..])
  {
    var t := s[|s| - |s| % 2..];
    PairUpShort(t);
    if |s| % 2 == 1 {
      assert |t| == 1 && t[0] == s[|s| - 1];
    } else {
      assert |t| == 0;
    }
  }

  /**
    With no history, and distinct ids, friend matching produces exactly the
    consecutive pairing of the basic matcher for the same shuffled list.
   */
  lemma FriendPairsWithoutHistory(s: seq<Entry>)
    requires DistinctIds(s)
    ensures FriendPairs(s, {}) == PairUp(s)
  {
    var m := |s| - |s| % 2;
    var p1 := Pass1(s, {}, 0, {});
    assert IdsOf(s[..0]) == {};
    Pass1WithoutHistory(s, 0);
    assert s[0..] == s;
    assert p1.pairs == ConsecutivePairs(s) && p1.used == IdsOf(s[..m]);
    RemainingAfterPrefix(s, m);
    assert FriendPairs(s, {}) == ConsecutivePairs(s) + PairUp(s[m..]);
    PairUpSplit(s);
  }
}

=== FILE: friend_pairing.dfy ===
/**
  The exclusion-aware rematching of `handleFriendMatch`.

  Pass 1 walks the shuffled list; each entry whose id is not yet used is
  paired with the first later unused entry whose id combination is not in
  the history of previous friends.  Pass 2 pairs whatever is left
  consecutively, with no constraint, and gives an odd leftover the waiting
  sentinel.  `used` is a set of ids, not of positions.
 */
module FriendPairing {
  import opened Seqs
  import opened Entries
  import opened Pairing

  /**
    The `previousFriends` history.  The key `${a}-${b}` is recorded as the
    tuple `(a, b)`; for the non-negative ids used here the string form is
    injective, so nothing is lost.
   */
  type History = set<(int, int)>

  /** `previousFriends.has(`${a}-${b}`) || previousFriends.has(`${b}-${a}`)`. */
  predicate Excluded(prev: History, a: int, b: int) {
    (a, b) in prev || (b, a) in prev
  }

  /** `s[k]` may partner `s[i]` in pass 1: its id is unused and the combination is not excluded. */
  predicate Eligible(s: seq<Entry>, prev: History, used: set<int>, i: nat, k: nat)
    requires i < |s| && k < |s|
  {
    s[k].id !in used && !Excluded(prev, s[i].id, s[k].id)
  }

  /** The inner loop of pass 1: the first eligible partner of `s[i]` at index `j` or later. */
  function FindPartner(s: seq<Entry>, prev: History, used: set<int>, i: nat, j: nat): (r: Option<nat>)
    requires i < j <= |s|
    ensures r.Some? ==> j <= r.value < |s| && Eligible(s, prev, used, i, r.value)
    ensures r.Some? ==> forall k :: j <= k < r.value ==> !Eligible(s, prev, used, i, k)
    ensures r.None? ==> forall k :: j <= k < |s| ==> !Eligible(s, prev, used, i, k)
    decreases |s| - j
  {
    if j == |s| then None
    else if Eligible(s, prev, used, i, j) then Some(j)
    else FindPartner(s, prev, used, i, j + 1)
  }

  datatype Pass1Result = Pass1Result(pairs: seq<Pair>, used: set<int>)

  /**
    The outer loop of pass 1 from index `i` with the ids in `used` already
    taken.  No pair it emits is an excluded combination, and any two entries
    of `s[i..]` it leaves unused form an excluded combination: pass 1 only
    gives up on an entry when every later unused entry is excluded for it.
   */
  function Pass1(s: seq<Entry>, prev: History, i: nat, used: set<int>): (r: Pass1Result)
    requires i <= |s|
    ensures used <= r.used
    ensures forall k :: 0 <= k < |r.pairs| ==> !Excluded(prev, r.pairs[k].player1.id, r.pairs[k].player2.id)
    ensures forall k :: 0 <= k < |r.pairs| ==> r.pairs[k].player1 in s && r.pairs[k].player2 in s
    ensures forall k, m :: i <= k < m < |s| && s[k].id !in r.used && s[m].id !in r.used ==>
              Excluded(prev, s[k].id, s[m].id)
    decreases |s| - i
  {
    if i == |s| then Pass1Result([], used)
    else if s[i].id in used then Pass1(s, prev, i + 1, used)
    else match FindPartner(s, prev, used, i, i + 1)
      case None =>
        var rest := Pass1(s, prev, i + 1, used);
        assert forall m :: i < m < |s| && s[m].id !in rest.used ==> !Eligible(s, prev, used, i, m);
        rest
      case Some(j) =>
        var rest := Pass1(s, prev, i + 1, used + {s[i].id, s[j].id});
        Pass1Result([Pair(s[i], s[j])] + rest.pairs, rest.used)
  }

  /** `shuffledEntries.filter(entry => !used.has(entry.id))`. */
  function Remaining(s: seq<Entry>, used: set<int>): (r: seq<Entry>)
    ensures forall i :: 0 <= i < |r| ==> r[i] in s && r[i].id !in used
    ensures forall i :: 0 <= i < |s| && s[i].id !in used ==> s[i] in r
  {
    Filter(s, (e: Entry) => e.id !in used)
  }

  /**
    Both passes over the shuffled list `s`: the result opens with the pass-1
    pairs, none of which is a combination in the history.
   */
  function FriendPairs(s: seq<Entry>, prev: History): (r: seq<Pair>)
    ensures var n := |Pass1(s, prev, 0, {}).pairs|;
            n <= |r| && forall k :: 0 <= k < n ==> !Excluded(prev, r[k].player1.id, r[k].player2.id)
    ensures r == Pass1(s, prev, 0, {}).pairs + r[|Pass1(s, prev, 0, {}).pairs|..]
  {
    var p1 := Pass1(s, prev, 0, {});
    p1.pairs + PairUp(Remaining(s, p1.used))
  }

  /** The history is consulted in both orders, so the order of a pair does not matter. */
  lemma ExcludedSymmetric(prev: History, a: int, b: int)
    ensures Excluded(prev, a, b) <==> Excluded(prev, b, a)
  {
  }

  /** `Remaining` on a non-empty list: the head is kept exactly when its id is unused. */
  lemma RemainingCons(s: seq<Entry>, used: set<int>)
    requires |s| > 0
    ensures Remaining(s, used) == (if s[0].id in used then [] else [s[0]]) + Remaining(s[1..], used)
  {
  }

  /** Every two entries of `t`, in either order, are an excluded combination. */
  predicate PairwiseExcluded(prev: History, t: seq<Entry>) {
    forall a, b :: 0 <= a < b < |t| ==> Excluded(prev, t[a].id, t[b].id)
  }

  /** The leftovers of a list whose unused entries are pairwise excluded are pairwise excluded. */
  lemma {:induction false} RemainingPairwiseExcluded(s: seq<Entry>, prev: History, used: set<int>)
    requires forall k, m :: 0 <= k < m < |s| && s[k].id !in used && s[m].id !in used ==>
               Excluded(prev, s[k].id, s[m].id)
    ensures PairwiseExcluded(prev, Remaining(s, used))
  {
    if |s| > 0 {
      var tail := Remaining(s[1..], used);
      RemainingPairwiseExcluded(s[1..], prev, used);
      RemainingCons(s, used);
      if s[0].id !in used {
        HeadExcludesRemaining(s, prev, used);
        PairwiseCons(prev, s[0], tail);
      }
    }
  }

  /** An unused head of a list whose unused entries are pairwise excluded excludes every leftover of its tail. */
  lemma HeadExcludesRemaining(s: seq<Entry>, prev: History, used: set<int>)
    requires |s| > 0 && s[0].id !in used
    requires forall k, m :: 0 <= k < m < |s| && s[k].id !in used && s[m].id !in used ==>
               Excluded(prev, s[k].id, s[m].id)
    ensures var tail := Remaining(s[1..], used);
            forall b :: 0 <= b < |tail| ==> Excluded(prev, s[0].id, tail[b].id)
  {
    var tail := Remaining(s[1..], used);
    forall b | 0 <= b < |tail|
      ensures Excluded(prev, s[0].id, tail[b].id)
    {
      var m :| 0 <= m < |s[1..]| && s[1..][m] == tail[b];
      assert s[m + 1] == tail[b];
    }
  }

  /** A list stays pairwise excluded when its new head excludes every old entry. */
  lemma PairwiseCons(prev: History, x: Entry, tail: seq<Entry>)
    requires PairwiseExcluded(prev, tail)
    requires forall b :: 0 <= b < |tail| ==> Excluded(prev, x.id, tail[b].id)
    ensures PairwiseExcluded(prev, [x] + tail)
  {
    var t := [x] + tail;
    forall a, b | 0 <= a < b < |t|
      ensures Excluded(prev, t[a].id, t[b].id)
    {
      assert t[b] == tail[b - 1];
      if a > 0 {
        assert t[a] == tail[a - 1];
      }
    }
  }

  /**
    In the result, the pairs pass 1 emitted avoid the history, and every pair
    pass 2 emitted from two entries is a combination the history excludes.
    So an excluded pair appears exactly when pass 1 leaves two or more
    entries behind.
   */
  lemma FriendPairsSplit(s: seq<Entry>, prev: History)
    ensures var p1 := Pass1(s, prev, 0, {});
            var r := FriendPairs(s, prev);
            var rem := Remaining(s, p1.used);
            && (forall k :: 0 <= k < |p1.pairs| ==> !Excluded(prev, r[k].player1.id, r[k].player2.id))
            && (forall k :: |p1.pairs| <= k < |p1.pairs| + |rem| / 2 ==>
                  Excluded(prev, r[k].player1.id, r[k].player2.id))
  {
    var p1 := Pass1(s, prev, 0, {});
    var rem := Remaining(s, p1.used);
    RemainingPairwiseExcluded(s, prev, p1.used);
    var r := FriendPairs(s, prev);
    forall k | |p1.pairs| <= k < |p1.pairs| + |rem| / 2
      ensures Excluded(prev, r[k].player1.id, r[k].player2.id)
    {
      var q := k - |p1.pairs|;
      assert r[k] == PairUp(rem)[q] == Pair(rem[2 * q], rem[2 * q + 1]);
    }
  }

  /**
    The greedy does not always avoid the history when an avoiding matching
    exists: shuffled ids `[3, 4, 1, 2]` with `1-2` excluded pair `(3, 4)`
    first, leaving `1` and `2` for the unconstrained pass 2, although
    `(1, 3), (2, 4)` would avoid it.
   */
  const ExampleShuffle: seq<Entry> := [Entry(3, "c"), Entry(4, "d"), Entry(1, "a"), Entry(2, "b")]
  const ExampleHistory: History := {(1, 2), (2, 1)}

  lemma ExamplePass1()
    ensures Pass1(ExampleShuffle, ExampleHistory, 0, {}) == Pass1Result([Pair(ExampleShuffle[0], ExampleShuffle[1])], {3, 4})
  {
    var s := ExampleShuffle;
    var prev := ExampleHistory;
    assert Pass1(s, prev, 4, {3, 4}) == Pass1Result([], {3, 4});
    assert FindPartner(s, prev, {3, 4}, 3, 4) == None;
    assert Pass1(s, prev, 3, {3, 4}) == Pass1Result([], {3, 4});
    assert FindPartner(s, prev, {3, 4}, 2, 4) == None;
    assert FindPartner(s, prev, {3, 4}, 2, 3) == None;
    assert Pass1(s, prev, 2, {3, 4}) == Pass1Result([], {3, 4});
    assert Pass1(s, prev, 1, {3, 4}) == Pass1Result([], {3, 4});
    assert FindPartner(s, prev, {}, 0, 1) == Some(1);
  }

  lemma ExampleRemaining()
    ensures Remaining(ExampleShuffle, {3, 4}) == ExampleShuffle[2..]
  {
    var s := ExampleShuffle;
    assert Remaining(s[3..], {3, 4}) == [s[3]] by {
      assert s[3..][1..] == [];
    }
    assert Remaining(s[2..], {3, 4}) == [s[2], s[3]] by {
      assert s[2..][1..] == s[3..];
    }
    assert Remaining(s[1..], {3, 4}) == [s[2], s[3]] by {
      assert s[1..][1..] == s[2..];
    }
  }

  /** The example history excludes `1-2` but neither `1-3` nor `2-4`; kept apart to keep the main proof small. */
  lemma ExampleHistoryFacts()
    ensures Excluded(ExampleHistory, 1, 2)
    ensures !Excluded(ExampleHistory, 1, 3) && !Excluded(ExampleHistory, 2, 4)
  {
    assert ExampleHistory == {(1, 2), (2, 1)};
  }

  lemma GreedyCanRepeatExcludedPair()
    ensures FriendPairs(ExampleShuffle, ExampleHistory)
         == [Pair(Entry(3, "c"), Entry(4, "d")), Pair(Entry(1, "a"), Entry(2, "b"))]
    ensures Excluded(ExampleHistory, 1, 2)
    ensures !Excluded(ExampleHistory, 1, 3) && !Excluded(ExampleHistory, 2, 4)
  {
    ExamplePass1();
    ExampleRemaining();
    ExampleHistoryFacts();
    assert ExampleShuffle[2..] == [Entry(1, "a"), Entry(2, "b")];
  }
}

=== FILE: friend_section.dfy ===
/**
  The friend table.  Besides the row edits it shares with the nickname
  table, it merges the players promoted by "add friend" into its rows:
  the rows with a nickname are kept, promoted nicknames not already present
  are appended, everything is renumbered and one blank row closes the table.
 */
module FriendSection {
  import opened Seqs
  import opened Entries
  import opened EntryTable

  /** The nicknames of `toAdd` that are not among `current`, in order. */
  function AddedNicknames(current: seq<string>, toAdd: seq<Entry>): (r: seq<string>)
    ensures forall i :: 0 <= i < |r| ==> r[i] !in current && r[i] in Nicknames(toAdd)
    ensures forall k :: 0 <= k < |toAdd| && toAdd[k].nickname !in current ==> toAdd[k].nickname in r
  {
    Filter(Nicknames(toAdd), (n: string) => n !in current)
  }

  /**
    The appended nicknames follow `friendsToAdd` left to right, duplicates
    included: one more promoted player appends its nickname exactly when it
    is not among the kept ones.
   */
  lemma AddedNicknamesSnoc(current: seq<string>, toAdd: seq<Entry>, x: Entry)
    ensures AddedNicknames(current, toAdd + [x])
         == AddedNicknames(current, toAdd) + (if x.nickname in current then [] else [x.nickname])
  {
    assert Nicknames(toAdd + [x]) == Nicknames(toAdd) + [x.nickname];
    FilterConcat(Nicknames(toAdd), [x.nickname], (n: string) => n !in current);
    assert [x.nickname][1..] == [];
  }

  /**
    The rows a merge produces from the kept nicknames `current`: those
    first, then the promoted nicknames they miss, then a blank row, numbered
    from 1.
   */
  function MergeInto(current: seq<string>, toAdd: seq<Entry>): (r: seq<Entry>)
    ensures WellFormed(r) && r[|r| - 1].nickname == ""
  {
    var all := current + AddedNicknames(current, toAdd);
    Numbering(all) + [Entry(|all| + 1, "")]
  }

  /**
    The `friendsToAdd` effect.  An empty `toAdd` leaves the rows alone;
    otherwise the non-blank rows' nicknames are kept, in order, and merged
    with the promoted ones.
   */
  function MergeFriends(rows: seq<Entry>, toAdd: seq<Entry>): (r: seq<Entry>)
    ensures |toAdd| == 0 ==> r == rows
    ensures |toAdd| > 0 ==> WellFormed(r) && r[|r| - 1].nickname == ""
  {
    if |toAdd| == 0 then rows else MergeInto(Nicknames(ValidEntries(rows)), toAdd)
  }

  /** The merged nicknames, row by row, before the closing blank row. */
  lemma MergedNicknames(current: seq<string>, toAdd: seq<Entry>)
    ensures var r := MergeInto(current, toAdd);
            var all := current + AddedNicknames(current, toAdd);
            |r| == |all| + 1 && forall i :: 0 <= i < |all| ==> r[i].nickname == all[i]
  {
    var all := current + AddedNicknames(current, toAdd);
    assert MergeInto(current, toAdd) == Numbering(all) + [Entry(|all| + 1, "")];
  }

  /**
    A merge keeps the kept nicknames first, in their order, and every
    nickname it appends after them was missing before.
   */
  lemma MergeKeepsCurrent(current: seq<string>, toAdd: seq<Entry>)
    ensures var r := MergeInto(current, toAdd);
            && |current| < |r|
            && (forall i :: 0 <= i < |current| ==> r[i].nickname == current[i])
            && (forall i :: |current| <= i < |r| - 1 ==> r[i].nickname !in current)
  {
    MergedNicknames(current, toAdd);
    var added := AddedNicknames(current, toAdd);
    assert forall i :: |current| <= i < |current| + |added| ==> (current + added)[i] == added[i - |current|];
  }

  /** Every promoted nickname ends up in some row before the closing blank one. */
  lemma MergeAddsEveryFriend(current: seq<string>, toAdd: seq<Entry>)
    ensures var r := MergeInto(current, toAdd);
            forall k :: 0 <= k < |toAdd| ==> exists i :: 0 <= i < |r| - 1 && r[i].nickname == toAdd[k].nickname
  {
    MergedNicknames(current, toAdd);
    var r := MergeInto(current, toAdd);
    var all := current + AddedNicknames(current, toAdd);
    forall k | 0 <= k < |toAdd|
      ensures exists i :: 0 <= i < |r| - 1 && r[i].nickname == toAdd[k].nickname
    {
      var n := toAdd[k].nickname;
      assert n in all by {
        assert Nicknames(toAdd)[k] == n;
      }
      var i :| 0 <= i < |all| && all[i] == n;
      assert r[i].nickname == n;
    }
  }

  /** Every nickname in `names` has a non-blank character. */
  predicate NoneBlank(names: seq<string>) {
    forall i :: 0 <= i < |names| ==> !IsBlank(names[i])
  }

  /** The kept nicknames of a table are non-blank. */
  lemma KeptNicknamesNoneBlank(rows: seq<Entry>)
    ensures NoneBlank(Nicknames(ValidEntries(rows)))
  {
  }

  /** Merging non-blank nicknames adds only non-blank nicknames. */
  lemma AddedNoneBlank(current: seq<string>, toAdd: seq<Entry>)
    requires NoneBlank(Nicknames(toAdd))
    ensures NoneBlank(AddedNicknames(current, toAdd))
  {
    var added := AddedNicknames(current, toAdd);
    forall i | 0 <= i < |added|
      ensures !IsBlank(added[i])
    {
      var k :| 0 <= k < |toAdd| && Nicknames(toAdd)[k] == added[i];
    }
  }

  /** Rows numbered from non-blank nicknames are all kept by the blank-row filter. */
  lemma NumberingAllValid(names: seq<string>)
    requires NoneBlank(names)
    ensures ValidEntries(Numbering(names)) == Numbering(names)
  {
    var body := Numbering(names);
    assert forall i :: 0 <= i < |body| ==> body[i].nickname == names[i];
    FilterKeepsAll(body, IsValid);
  }

  /** The closing blank row is dropped by the blank-row filter. */
  lemma ClosingRowDropped(k: int)
    ensures ValidEntries([Entry(k, "")]) == []
  {
    assert !IsValid(Entry(k, ""));
  }

  /** Numbered non-blank nicknames followed by a blank row keep exactly the numbered rows. */
  lemma ValidBeforeClosingRow(names: seq<string>)
    requires NoneBlank(names)
    ensures ValidEntries(Numbering(names) + [Entry(|names| + 1, "")]) == Numbering(names)
  {
    FilterConcat(Numbering(names), [Entry(|names| + 1, "")], IsValid);
    NumberingAllValid(names);
    ClosingRowDropped(|names| + 1);
  }

  /** After a merge, the kept nicknames of the result are exactly the merged nicknames. */
  lemma KeptAfterMerge(current: seq<string>, toAdd: seq<Entry>)
    requires NoneBlank(current) && NoneBlank(Nicknames(toAdd))
    ensures Nicknames(ValidEntries(MergeInto(current, toAdd))) == current + AddedNicknames(current, toAdd)
  {
    var all := current + AddedNicknames(current, toAdd);
    AddedNoneBlank(current, toAdd);
    assert NoneBlank(all);
    ValidBeforeClosingRow(all);
  }

  /** Every promoted nickname is among the merged nicknames, so a second merge appends nothing. */
  lemma NothingAddedTwice(current: seq<string>, toAdd: seq<Entry>)
    ensures AddedNicknames(current + AddedNicknames(current, toAdd), toAdd) == []
  {
    var all := current + AddedNicknames(current, toAdd);
    forall k | 0 <= k < |Nicknames(toAdd)|
      ensures Nicknames(toAdd)[k] in all
    {
    }
    FilterDropsAll(Nicknames(toAdd), (n: string) => n !in all);
  }

  /** Merging the same players into an already merged list of nicknames gives the same rows. */
  lemma MergeIntoStable(current: seq<string>, toAdd: seq<Entry>)
    ensures MergeInto(current + AddedNicknames(current, toAdd), toAdd) == MergeInto(current, toAdd)
  {
    var all := current + AddedNicknames(current, toAdd);
    NothingAddedTwice(current, toAdd);
    assert all + AddedNicknames(all, toAdd) == all;
  }

  /**
    Promoting the same non-blank players twice in a row changes nothing the
    second time: the merge is idempotent.
   */
  lemma MergeFriendsIdempotent(rows: seq<Entry>, toAdd: seq<Entry>)
    requires NoneBlank(Nicknames(toAdd))
    ensures MergeFriends(MergeFriends(rows, toAdd), toAdd) == MergeFriends(rows, toAdd)
  {
    if |toAdd| > 0 {
      var current := Nicknames(ValidEntries(rows));
      var r := MergeInto(current, toAdd);
      assert MergeFriends(rows, toAdd) == r;
      KeptNicknamesNoneBlank(rows);
      KeptAfterMerge(current, toAdd);
      assert MergeFriends(r, toAdd) == MergeInto(current + AddedNicknames(current, toAdd), toAdd);
      MergeIntoStable(current, toAdd);
    }
  }

  /** What the user, or the parent through `friendsToAdd`, does to the friend table. */
  datatype Action =
    | FriendsToAdd(toAdd: seq<Entry>)
    | InputChange(id: int, value: string)
    | KeyPress(key: string, id: int)
    | Remove(id: int)
    | KeepNumberRemove(id: int)
    | Reset
    | AddRow

  /** The friend table after one handler run on the rows `es`. */
  function Step(es: seq<Entry>, a: Action): (r: seq<Entry>)
    requires |es| > 0
    ensures a.Reset? ==> r == Initial
    ensures a.FriendsToAdd? && |a.toAdd| == 0 ==> r == es
  {
    match a
    case FriendsToAdd(toAdd) => MergeFriends(es, toAdd)
    case InputChange(id, value) => SetNickname(es, id, value)
    case KeyPress(key, id) => PressKey(es, key, id)
    case Remove(id) => RemoveRow(es, id)
    case KeepNumberRemove(id) => BlankRow(es, id)
    case Reset => Initial
    case AddRow => AppendRow(es)
  }

  /** Every handler, the merge included, keeps the rows non-empty and numbered `1..n`. */
  lemma StepKeepsWellFormed(es: seq<Entry>, a: Action)
    requires WellFormed(es)
    ensures WellFormed(Step(es, a))
  {
    match a
    case FriendsToAdd(toAdd) =>
    case InputChange(id, value) => SetNicknameNumbered(es, id, value);
    case KeyPress(key, id) => PressKeyNumbered(es, key, id); AppendRowNumbered(es);
    case Remove(id) => if |es| > 1 { RemoveRowNumbered(es, id); }
    case KeepNumberRemove(id) => SetNicknameNumbered(es, id, "");
    case Reset =>
    case AddRow => AppendRowNumbered(es);
  }

  /** The rows after a run of actions from `es`; from `Initial`, no run empties the table or breaks the numbering. */
  function Run(es: seq<Entry>, actions: seq<Action>): (r: seq<Entry>)
    requires WellFormed(es)
    ensures WellFormed(r)
    decreases |actions|
  {
    if |actions| == 0 then es
    else
      StepKeepsWellFormed(es, actions[0]);
      Run(Step(es, actions[0]), actions[1..])
  }
}

=== FILE: nickname_table.dfy ===
/**
  The nickname table of the basic matcher.  Every edit replaces the rows
  and reports the new rows to the parent through `onEntriesChange`; the
  parent's reset bumps a trigger, and a positive trigger puts the table
  back to one blank row.
 */
module NicknameTable {
  import opened Entries
  import opened EntryTable

  /** What the user, or the parent through the reset trigger, does to the table. */
  datatype Action =
    | InputChange(id: int, value: string)
    | Remove(id: int)
    | KeepNumberRemove(id: int)
    | AddRow
    | KeyPress(key: string, id: int)
    | ResetTrigger(trigger: int)

  /** The rows after an action, and the rows handed to `onEntriesChange` if the handler calls it. */
  datatype Outcome = Outcome(entries: seq<Entry>, reported: Option<seq<Entry>>)

  /** One handler run on the rows `es`. */
  function Step(es: seq<Entry>, a: Action): (r: Outcome)
    requires |es| > 0
    ensures r.reported.Some? ==> r.reported.value == r.entries
    ensures r.reported.None? ==> r.entries == es
  {
    match a
    case InputChange(id, value) =>
      var u := SetNickname(es, id, value);
      Outcome(u, Some(u))
    case Remove(id) =>
      if |es| <= 1 then Outcome(es, None)
      else
        var u := RemoveRow(es, id);
        Outcome(u, Some(u))
    case KeepNumberRemove(id) =>
      var u := BlankRow(es, id);
      Outcome(u, Some(u))
    case AddRow =>
      var u := AppendRow(es);
      Outcome(u, Some(u))
    case KeyPress(key, id) =>
      if EnterAppends(es, key, id) then
        var u := AppendRow(es);
        Outcome(u, Some(u))
      else Outcome(es, None)
    case ResetTrigger(trigger) =>
      if trigger > 0 then Outcome(Initial, Some(Initial)) else Outcome(es, None)
  }

  /** Every handler keeps the rows non-empty and numbered `1..n`. */
  lemma StepKeepsWellFormed(es: seq<Entry>, a: Action)
    requires WellFormed(es)
    ensures WellFormed(Step(es, a).entries)
  {
    match a
    case InputChange(id, value) => SetNicknameNumbered(es, id, value);
    case Remove(id) => if |es| > 1 { RemoveRowNumbered(es, id); }
    case KeepNumberRemove(id) => SetNicknameNumbered(es, id, "");
    case AddRow => AppendRowNumbered(es);
    case KeyPress(key, id) => AppendRowNumbered(es);
    case ResetTrigger(trigger) =>
  }

  /** The rows after a run of actions from `es`; from `Initial`, no run empties the table or breaks the numbering. */
  function Run(es: seq<Entry>, actions: seq<Action>): (r: seq<Entry>)
    requires WellFormed(es)
    ensures WellFormed(r)
    decreases |actions|
  {
    if |actions| == 0 then es
    else
      StepKeepsWellFormed(es, actions[0]);
      Run(Step(es, actions[0]).entries, actions[1..])
  }

  /**
    The reset effect as written: it lists `onEntriesChange` among its
    dependencies, and the page hands the table a new `onEntriesChange` on
    every render.  A reported change re-renders the page, so the effect runs
    again right after it and, once the trigger is positive, puts the table
    back to one blank row.
   */
  function SettleAsWritten(o: Outcome, trigger: int): (r: seq<Entry>)
    ensures o.reported.None? ==> r == o.entries
    ensures o.reported.Some? ==> (r == Initial <==> trigger > 0 || o.entries == Initial)
  {
    if o.reported.Some? && trigger > 0 then Initial else o.entries
  }

  /** After one reset (trigger 1), typing "a" in row 1 is wiped out by the re-run effect. */
  lemma EditLostAfterReset()
    ensures var o := Step(Initial, InputChange(1, "a"));
            o.entries == [Entry(1, "a")] && SettleAsWritten(o, 1) == Initial
  {
    var o := Step(Initial, InputChange(1, "a"));
    assert o.entries[0] == Entry(1, "a");
  }

  /** The evident intent: the effect resets the table only when the trigger itself has changed. */
  function Settle(o: Outcome, before: int, trigger: int): (r: seq<Entry>)
    ensures trigger != before && trigger > 0 ==> r == Initial
  {
    if trigger != before && trigger > 0 then Initial else o.entries
  }

  /** With the intended effect, every handler's result survives the re-render it causes. */
  lemma EditsSurviveRender(es: seq<Entry>, a: Action, trigger: int)
    requires |es| > 0
    ensures Settle(Step(es, a), trigger, trigger) == Step(es, a).entries
  {
  }
}

=== FILE: pairing.dfy ===
/**
  The basic pairing of `handleMatching`: a shuffled list is consumed two at a
  time, and an odd leftover is paired with the waiting sentinel.  The
  friend-match fallback pass uses the same policy.
 */
module Pairing {
  import opened Entries

  /** `(s[0], s[1]), (s[2], s[3]), ...` over the first `2 * (|s| / 2)` entries. */
  function ConsecutivePairs(s: seq<Entry>): (r: seq<Pair>)
    ensures |r| == |s| / 2
    ensures forall k :: 0 <= k < |r| ==> r[k] == Pair(s[2 * k], s[2 * k + 1])
  {
    if |s| < 2 then [] else [Pair(s[0], s[1])] + ConsecutivePairs(s[2..])
  }

  /** The consecutive pairs, then `(last, 대기)` when the length is odd. */
  function PairUp(s: seq<Entry>): (r: seq<Pair>)
    ensures |r| == (|s| + 1) / 2
    ensures forall k :: 0 <= k < |s| / 2 ==> r[k] == Pair(s[2 * k], s[2 * k + 1])
    ensures |s| % 2 == 1 ==> r[|r| - 1] == WaitPair(s[|s| - 1])
  {
    ConsecutivePairs(s) + (if |s| % 2 == 1 then [WaitPair(s[|s| - 1])] else [])
  }

  /**
    The loops of `handleMatching` after the shuffle: `i` runs over
    `0, 2, 4, ...` while `i < length - 1`, pushing `(s[i], s[i + 1])` under
    the (always true) guard `i + 1 < length`; then an odd length pushes the
    waiting pair of the last entry.
   */
  method MatchShuffled(s: seq<Entry>) returns (matchResults: seq<Pair>)
    ensures matchResults == PairUp(s)
  {
    matchResults := [];
    var i := 0;
    while i < |s| - 1
      invariant 0 <= i <= |s| && i % 2 == 0
      invariant matchResults == ConsecutivePairs(s[..i])
    {
      if i + 1 < |s| {
        matchResults := matchResults + [Pair(s[i], s[i + 1])];
      }
      i := i + 2;
      assert matchResults == ConsecutivePairs(s[..i]);
    }
    assert matchResults == ConsecutivePairs(s);
    if |s| % 2 == 1 {
      matchResults := matchResults + [WaitPair(s[|s| - 1])];
    }
  }

  /** Reading the consecutive pairs back in order gives the list without its odd leftover. */
  lemma {:induction false} ConsecutivePairsFlatten(s: seq<Entry>)
    ensures Flatten(ConsecutivePairs(s)) == s[..|s| - |s| % 2]
  {
    if |s| >= 2 {
      var rest := ConsecutivePairs(s[2..]);
      ConsecutivePairsFlatten(s[2..]);
      assert ConsecutivePairs(s) == [Pair(s[0], s[1])] + rest;
      FlattenConcat([Pair(s[0], s[1])], rest);
      assert s[..|s| - |s| % 2] == [s[0], s[1]] + s[2..][..|s[2..]| - |s[2..]| % 2];
    }
  }

  /**
    Reading the result back in order gives the shuffled list itself, followed
    by the sentinel when the count is odd: no entry is lost, repeated or
    reordered.
   */
  lemma PairUpFlatten(s: seq<Entry>)
    ensures Flatten(PairUp(s)) == s + (if |s| % 2 == 1 then [Sentinel] else [])
  {
    ConsecutivePairsFlatten(s);
    if |s| % 2 == 1 {
      FlattenConcat(ConsecutivePairs(s), [WaitPair(s[|s| - 1])]);
      assert s == s[..|s| - 1] + [s[|s| - 1]];
    } else {
      assert PairUp(s) == ConsecutivePairs(s);
    }
  }

  /** The sentinel's share of the players of an `n`-entry pairing. */
  function SentinelIfOdd(n: nat): multiset<Entry> {
    if n % 2 == 1 then multiset{Sentinel} else multiset{}
  }

  /** Hence every entry is a player of exactly one pair, next to at most one sentinel. */
  lemma PairUpCovers(s: seq<Entry>)
    ensures multiset(Flatten(PairUp(s)))
         == multiset(s) + SentinelIfOdd(|s|)
  {
    PairUpFlatten(s);
  }

  /**
    Every player of the basic pairing of `s` is an entry of `s`, except the
    sentinel, which can only be the second player of the last pair.
   */
  lemma PairUpPlayers(s: seq<Entry>)
    ensures var res := PairUp(s);
            && (forall k :: 0 <= k < |res| ==> res[k].player1 in s && (res[k].player2 in s || res[k].player2 == Sentinel))
            && (forall k :: 0 <= k < |s| / 2 ==> res[k].player2 in s)
  {
    var res := PairUp(s);
    forall k | 0 <= k < |res|
      ensures res[k].player1 in s && (res[k].player2 in s || res[k].player2 == Sentinel)
      ensures k < |s| / 2 ==> res[k].player2 in s
    {
      if k < |s| / 2 {
        assert res[k] == Pair(s[2 * k], s[2 * k + 1]);
      } else {
        assert res[k] == WaitPair(s[|s| - 1]);
      }
    }
  }
}

=== FILE: seqs.dfy ===
/**
  Sequence helpers shared by the pairing engine and the two nickname tables:
  JavaScript's `Array.prototype.filter`, modelled on immutable sequences.
 */
module Seqs {

  /** The elements of `s` that satisfy `p`, in their original order. */
  function Filter<T>(s: seq<T>, p: T -> bool): (r: seq<T>)
    ensures |r| <= |s|
    ensures forall i :: 0 <= i < |r| ==> r[i] in s && p(r[i])
    ensures forall i :: 0 <= i < |s| && p(s[i]) ==> s[i] in r
  {
    if |s| == 0 then []
    else (if p(s[0]) then [s[0]] else []) + Filter(s[1..], p)
  }

  /** Filtering distributes over concatenation, so the relative order of the kept elements is preserved. */
  lemma {:induction false} FilterConcat<T>(a: seq<T>, b: seq<T>, p: T -> bool)
    ensures Filter(a + b, p) == Filter(a, p) + Filter(b, p)
  {
    if |a| == 0 {
      assert a + b == b;
    } else {
      assert (a + b)[1..] == a[1..] + b;
      FilterConcat(a[1..], b, p);
    }
  }

  /** A filter that keeps everything is the identity. */
  lemma {:induction false} FilterKeepsAll<T>(s: seq<T>, p: T -> bool)
    requires forall i :: 0 <= i < |s| ==> p(s[i])
    ensures Filter(s, p) == s
  {
    if |s| > 0 {
      FilterKeepsAll(s[1..], p);
    }
  }

  /** A filter that keeps nothing gives the empty sequence. */
  lemma {:induction false} FilterDropsAll<T>(s: seq<T>, p: T -> bool)
    requires forall i :: 0 <= i < |s| ==> !p(s[i])
    ensures Filter(s, p) == []
  {
    if |s| > 0 {
      FilterDropsAll(s[1..], p);
    }
  }

  /** Filtering out exactly one element `x` between kept parts removes just `x`. */
  lemma FilterDropsOne<T>(front: seq<T>, x: T, back: seq<T>, p: T -> bool)
    requires forall i :: 0 <= i < |front| ==> p(front[i])
    requires forall i :: 0 <= i < |back| ==> p(back[i])
    requires !p(x)
    ensures Filter(front + [x] + back, p) == front + back
  {
    var tail := [x] + back;
    assert front + [x] + back == front + tail;
    FilterDropsHead(x, back, p);
    FilterConcat(front, tail, p);
    FilterKeepsAll(front, p);
  }

  lemma FilterDropsHead<T>(x: T, back: seq<T>, p: T -> bool)
    requires forall i :: 0 <= i < |back| ==> p(back[i])
    requires !p(x)
    ensures Filter([x] + back, p) == back
  {
    assert ([x] + back)[1..] == back;
    FilterKeepsAll(back, p);
  }
}

=== FILE: shuffle.dfy ===
/**
  `shuffleArray`: an in-place Fisher–Yates shuffle over a copy of its input.

  The random index `Math.floor(Math.random() * (i + 1))` drawn at step `i`
  is supplied as `js[i]`; the only thing the model knows about it is that it
  lies in `[0, i]`.  Because a sequence is a value, the caller's input is
  never modified.
 */
module Shuffling {
  import opened Entries

  /** `js[i]` is a legal random index for step `i` of a shuffle of `n` elements (`js[0]` is never used). */
  predicate ValidChoices(js: seq<int>, n: nat) {
    |js| == n && forall i :: 0 <= i < n ==> 0 <= js[i] <= i
  }

  /** `[s[i], s[j]] = [s[j], s[i]]`. */
  function Swap<T>(s: seq<T>, i: nat, j: nat): (r: seq<T>)
    requires i < |s| && j < |s|
    ensures |r| == |s| && r[i] == s[j] && r[j] == s[i]
    ensures forall k :: 0 <= k < |s| && k != i && k != j ==> r[k] == s[k]
  {
    s[i := s[j]][j := s[i]]
  }

  /** A swap only exchanges two elements. */
  lemma SwapPermutes<T>(s: seq<T>, i: nat, j: nat)
    requires i < |s| && j < |s|
    ensures multiset(Swap(s, i, j)) == multiset(s)
  {
    assert s[i := s[j]][j := s[i]] == Swap(s, i, j);
  }

  /** The steps `i, i - 1, ..., 1` of the shuffle loop, starting from `s`. */
  function ShuffleDown<T>(s: seq<T>, i: nat, js: seq<int>): (r: seq<T>)
    requires i < |s| && ValidChoices(js, |s|)
    ensures |r| == |s|
    decreases i
  {
    if i == 0 then s else ShuffleDown(Swap(s, i, js[i]), i - 1, js)
  }

  lemma {:induction false} ShuffleDownPermutes<T>(s: seq<T>, i: nat, js: seq<int>)
    requires i < |s| && ValidChoices(js, |s|)
    ensures multiset(ShuffleDown(s, i, js)) == multiset(s)
    decreases i
  {
    if i > 0 {
      SwapPermutes(s, i, js[i]);
      ShuffleDownPermutes(Swap(s, i, js[i]), i - 1, js);
    }
  }

  /** The shuffle of `a` under the index choices `js`. */
  function Shuffle<T>(a: seq<T>, js: seq<int>): (r: seq<T>)
    requires ValidChoices(js, |a|)
    ensures |r| == |a| && multiset(r) == multiset(a)
  {
    if |a| == 0 then a
    else
      ShuffleDownPermutes(a, |a| - 1, js);
      ShuffleDown(a, |a| - 1, js)
  }

  /** A shuffle holds only entries of its input. */
  lemma ShuffleMembers<T>(a: seq<T>, js: seq<int>)
    requires ValidChoices(js, |a|)
    ensures forall x :: x in Shuffle(a, js) ==> x in a
  {
    var s := Shuffle(a, js);
    forall x | x in s
      ensures x in a
    {
      assert x in multiset(s);
    }
  }

  /** The loop of `shuffleArray`, iterating `i` from `length - 1` down to 1. */
  method ShuffleArray<T>(input: seq<T>, js: seq<int>) returns (shuffled: seq<T>)
    requires ValidChoices(js, |input|)
    ensures |shuffled| == |input| && multiset(shuffled) == multiset(input)
    ensures shuffled == Shuffle(input, js)
  {
    shuffled := input;
    var i := |input| - 1;
    while i > 0
      invariant |input| == 0 ==> shuffled == input
      invariant |input| > 0 ==> 0 <= i < |shuffled| == |input|
      invariant |input| > 0 ==> ShuffleDown(shuffled, i, js) == Shuffle(input, js)
    {
      ghost var before := shuffled;
      shuffled := Swap(shuffled, i, js[i]);
      assert ShuffleDown(before, i, js) == ShuffleDown(shuffled, i - 1, js);
      i := i - 1;
    }
  }

  /** An empty or one-element list comes back unchanged. */
  lemma ShuffleShort<T>(a: seq<T>, js: seq<int>)
    requires ValidChoices(js, |a|) && |a| <= 1
    ensures Shuffle(a, js) == a
  {
  }

  /** A swap inside the prefix `s[..i + 1]` permutes that prefix. */
  lemma SwapInPrefix<T>(s: seq<T>, i: nat, j: nat)
    requires j <= i < |s|
    ensures multiset(Swap(s, i, j)[..i + 1]) == multiset(s[..i + 1])
  {
    assert Swap(s, i, j)[..i + 1] == Swap(s[..i + 1], i, j);
    SwapPermutes(s[..i + 1], i, j);
  }

  /** Two prefixes that agree as multisets and end in the same element agree without it. */
  lemma DropLast<T>(a: seq<T>, b: seq<T>, i: nat)
    requires i < |a| && i < |b| && a[i] == b[i]
    requires multiset(a[..i + 1]) == multiset(b[..i + 1])
    ensures multiset(a[..i]) == multiset(b[..i])
  {
    calc {
      multiset(a[..i]);
      { assert a[..i + 1] == a[..i] + [a[i]]; }
      multiset(a[..i + 1]) - multiset{a[i]};
      multiset(b[..i + 1]) - multiset{b[i]};
      { assert b[..i + 1] == b[..i] + [b[i]]; }
      multiset(b[..i]);
    }
  }

  /** `t[i]` occurs in the prefix `s[..i + 1]` that is a permutation of `t[..i + 1]`. */
  lemma FindInPrefix<T>(s: seq<T>, t: seq<T>, i: nat) returns (j: nat)
    requires i < |s| && i < |t|
    requires multiset(s[..i + 1]) == multiset(t[..i + 1])
    ensures j <= i && s[j] == t[i]
  {
    assert t[i] in multiset(t[..i + 1]) by {
      assert t[..i + 1][i] == t[i];
    }
    assert t[i] in s[..i + 1];
    j :| 0 <= j <= i && s[j] == t[i];
  }

  /**
    One step of the construction: some index `j <= i` brings `t[i]` into
    position `i`, after which the prefix before `i` is still a permutation of
    `t`'s and everything from `i` on agrees with `t`.
   */
  lemma PickStep<T>(s: seq<T>, t: seq<T>, i: nat) returns (j: nat)
    requires i < |s| == |t|
    requires multiset(s[..i + 1]) == multiset(t[..i + 1])
    requires s[i + 1..] == t[i + 1..]
    ensures j <= i
    ensures multiset(Swap(s, i, j)[..i]) == multiset(t[..i])
    ensures Swap(s, i, j)[i..] == t[i..]
  {
    j := FindInPrefix(s, t, i);
    SwapInPrefix(s, i, j);
    DropLast(Swap(s, i, j), t, i);
    assert Swap(s, i, j)[i..] == t[i..] by {
      assert Swap(s, i, j)[i..] == [t[i]] + s[i + 1..];
      assert t[i..] == [t[i]] + t[i + 1..];
    }
  }

  /** Running the steps `i, ..., 1` with well-picked indices turns `s` into `t`. */
  lemma {:induction false} ReachDown<T>(s: seq<T>, t: seq<T>, i: nat, js: seq<int>) returns (js': seq<int>)
    requires i < |s| == |t| && ValidChoices(js, |s|)
    requires multiset(s[..i + 1]) == multiset(t[..i + 1])
    requires s[i + 1..] == t[i + 1..]
    ensures ValidChoices(js', |s|)
    ensures forall k :: i < k < |s| ==> js'[k] == js[k]
    ensures ShuffleDown(s, i, js') == t
    decreases i
  {
    if i == 0 {
      assert s[..1] == [s[0]] && t[..1] == [t[0]];
      assert multiset{s[0]} == multiset{t[0]};
      assert s == s[..1] + s[1..] && t == t[..1] + t[1..];
      js' := js;
    } else {
      var j := PickStep(s, t, i);
      var s' := Swap(s, i, j);
      assert s'[i..] == t[i..];
      js' := ReachDown(s', t, i - 1, js[i := j]);
    }
  }

  /**
    Every permutation of the input is the shuffle under some choice of
    indices, so no ordering is out of the shuffle's reach.
   */
  lemma ShuffleReachesEveryPermutation<T>(a: seq<T>, t: seq<T>)
    requires multiset(t) == multiset(a)
    ensures exists js :: ValidChoices(js, |a|) && Shuffle(a, js) == t
  {
    assert |t| == |multiset(t)| == |a|;
    if |a| == 0 {
      assert ValidChoices([], 0) && Shuffle(a, []) == t;
    } else {
      var zeros := seq(|a|, k => 0);
      assert a[..|a|] == a && t[..|t|] == t;
      var js := ReachDown(a, t, |a| - 1, zeros);
      assert Shuffle(a, js) == t;
    }
  }

  /** Shuffling only moves entries around, so ids that were distinct stay distinct. */
  lemma {:induction false} ShuffleDownKeepsDistinctIds(s: seq<Entry>, i: nat, js: seq<int>)
    requires i < |s| && ValidChoices(js, |s|) && DistinctIds(s)
    ensures DistinctIds(ShuffleDown(s, i, js))
    decreases i
  {
    if i > 0 {
      var s' := Swap(s, i, js[i]);
      assert DistinctIds(s') by {
        forall a, b | 0 <= a < b < |s'|
          ensures s'[a].id != s'[b].id
        {
          var a' := if a == i then js[i] else if a == js[i] then i else a;
          var b' := if b == i then js[i] else if b == js[i] then i else b;
          assert a' != b' && s'[a] == s[a'] && s'[b] == s[b'];
          if a' < b' {
            assert s[a'].id != s[b'].id;
          } else {
            assert s[b'].id != s[a'].id;
          }
        }
      }
      ShuffleDownKeepsDistinctIds(s', i - 1, js);
    }
  }

  lemma ShuffleKeepsDistinctIds(a: seq<Entry>, js: seq<int>)
    requires ValidChoices(js, |a|) && DistinctIds(a)
    ensures DistinctIds(Shuffle(a, js))
  {
    if |a| > 0 {
      ShuffleDownKeepsDistinctIds(a, |a| - 1, js);
    }
  }
}
